=== FILE: README.md ===
# Cutify-Web theme logic in Dafny

Cutify-Web is a browser extension that dresses web pages in "cute" colour
themes. It has four surfaces that share one synced key-value store:

- **dashboard**: lists the three preset themes and the user's custom themes, saves
  (creates or edits), deletes and applies them, and keeps a five-entry
  recently-used list that orders the custom themes;
- **popup**: shows an on/off toggle and the name of the current theme;
- **background coordinator**: broadcasts a toggle request to every open tab, stores
  the new state, syncs a tab when it finishes loading or is activated, and writes
  defaults at install time;
- **content script's `ThemeManager`**: a per-page state machine. It marks
  elements with `data-theme`, remembers which it has processed, reacts to
  `toggleTheme` messages and to added DOM nodes, and on removal takes off its
  marks and effect classes (the star containers stay).

This project models those decisions as pure functions and proves what they
promise. Each handler returns the ordered trace of its effects:

- `Write(items)`: a `chrome.storage.sync.set` call, with per-key last-writer-wins;
- `Send(tab, msg, delivered)`: a `chrome.tabs.sendMessage` call.

`Replay` folds the writes of a trace into a store. The clock (`Date.now()`),
the `confirm()` answer, the list of open tabs and whether a tab has a
listener are inputs.

The store keys keep their names: the dashboard, the popup and the
ThemeManager use `currentTheme`, while the background uses `activeTheme`. They are
different keys, and the `Protocol` module proves where the surfaces agree
and where they do not.

Modules: `Values` (optional values, JavaScript truthiness, decimal text),
`Seqs` (filter, map, index, subsequence), `Themes` (records, presets, lookup by
id), `Store` (store, messages, traces), `ThemeOrder` (the dashboard's sort),
`Dashboard`, `Content`, `Background`, `Popup`, `Protocol`.

### Behaviour worth knowing

- Deleting the current theme resets `currentTheme` to `pastel-paradise`
  (scripts/dashboard.js:291-293). It does not touch `activeTheme`. The model
  follows the code.
- `removeTheme` (scripts/content.js:89-99) removes the attributes and the two
  effect classes, but not the star containers that `createStars` appended.
  The model keeps the containers (`Content.RemoveTheme`), and every
  starry-night apply adds one more (`Content.ApplyIdempotent`).
- A reload of a tab is `ThemeManager.init` (scripts/content.js:9-20)
  followed by the sync the background sends when the load completes
  (scripts/background.js:2-6). `init` reads `currentTheme`, but the sync
  carries `activeTheme`.
- The popup's toggle sends `currentTheme || 'pastel-paradise'`
  (scripts/popup.js:41). `ThemeManager.init` reads the raw `currentTheme`
  (scripts/content.js:12-14). With neither theme key stored, the live tab is
  themed but a reload of it is not (`Protocol.PopupToggleReloadMismatch`).
- The dashboard's apply writes `currentTheme` but never `activeTheme`. A
  later reload therefore ends with the manager, the root and the body on a stale
  `activeTheme` whenever one is set and differs
  (`Protocol.DashboardApplyReload`). The popup's toggle has the same issue
  (`Protocol.PopupToggleMatchesReload`).
- The background's toggle writes `activeTheme` but leaves `currentTheme`.
  On a reload, `init` themes every element with the stored `currentTheme`,
  and the sync then moves only the manager, the root and the body to the
  toggled theme. Already processed elements are never re-themed, so the page ends
  up mixed (`Protocol.BackgroundToggleReload`).
- On a live tab, re-theming also leaves processed elements on their first
  theme (`Content.ReapplyKeepsProcessed`). So only an untouched page is
  guaranteed to show one theme throughout (`Content.ApplyFreshShows`).
- None of the scripts sends `toggleTheme` to the background. The popup
  (scripts/popup.js:47-48) and the dashboard (scripts/dashboard.js:316-317)
  use `chrome.tabs.sendMessage`, which reaches content scripts, not the
  `runtime.onMessage` listener of scripts/background.js:14. So
  `Background.OnToggleRequest` and `Protocol.BackgroundToggleReload` describe
  a handler that these files never trigger.
- The dashboard opens as a tab of its own (scripts/popup.js:58-60), so its
  query for the active tab of the current window most likely returns the
  dashboard itself. Its send then has no content script to reach, which is
  the unreachable case of `Protocol.DashboardApplyReachesTab`.

## Model

| member | source | states |
|---|---|---|
| `Values.DecimalInjective` | scripts/dashboard.js:267 | the decimal text of a timestamp determines the timestamp |
| `Dashboard.CustomIdInjective` | scripts/dashboard.js:267 | two custom ids `'custom-' + Date.now()` are equal only if they were made at the same instant |
| `Dashboard.CustomIdNotPreset` | scripts/dashboard.js:267 | no custom id equals the id of a preset theme |
| `Values.Decimal` | scripts/dashboard.js:267 | `String(Date.now())` is a non-empty string of decimal digits, one digit exactly below ten |
| `Seqs.Filter` | scripts/dashboard.js:288 | `filter` keeps only passing elements of the input, keeps every one of them, and is no longer than the input |
| `Seqs.Map` | scripts/dashboard.js:259 | `map` has the input's length and holds the function's value at each position |
| `Seqs.IndexOf` | scripts/dashboard.js:33-34 | `indexOf` is the first position holding the value, or -1 exactly when it is absent |
| `Store.Set` | scripts/popup.js:44 | a `chrome.storage.sync.set` replaces exactly the keys it is given and keeps every other key |
| `Store.SetMerge` | scripts/dashboard.js:301-310 | two writes in a row equal one write of their merge, the later one winning per key |
| `Store.SetIdempotent` | scripts/popup.js:44 | repeating a write, as flipping the toggle the same way twice does, changes nothing more |
| `Dashboard.CustomId` | scripts/dashboard.js:267 | a custom id is `custom-` followed by at least one decimal digit |
| `Dashboard.Overwrite` | scripts/dashboard.js:261 | an edit keeps the theme's id and kind and takes name, colours and font from the form |
| `Background.ToggleWrite` | scripts/background.js:31-34 | the toggle stores `enabled`, and `activeTheme` as the request's theme when enabling and null when disabling, and no other key |
| `Content.ShouldSkip` | scripts/content.js:101-113 | an element is skipped exactly when it is a script or style tag, has class `no-theme`, `code` or `syntax`, or has id `monaco-editor` or `code-editor` |
| `Content.IsInteractive` | scripts/content.js:115-118 | an element is interactive exactly when its tag is `BUTTON`, `A`, `INPUT`, `SELECT` or `TEXTAREA` |
| `Themes.FindById` | scripts/popup.js:28 | `find` by id returns the first theme with that id, and nothing exactly when no theme has it |
| `ThemeOrder.Rank` | scripts/dashboard.js:33-34 | a theme's rank is its id's first position in `recentlyUsed`, or the list's length exactly when the id is not listed |
| `ThemeOrder.Compare` | scripts/dashboard.js:32-39 | the comparator is negative, zero or positive exactly as the first theme's rank is below, equal to or above the second's |
| `ThemeOrder.SortByRecent` | scripts/dashboard.js:32-39 | the sorted list is a permutation of the input, ordered by rank, with no pair out of the comparator's order |
| `ThemeOrder.SortStable` | scripts/dashboard.js:32-39 | themes of equal rank keep their original relative order, as the stable sort of ECMAScript 2019 (section 22.1.3.27) guarantees |
| `ThemeOrder.RecentFirst` | scripts/dashboard.js:32-39 | recently used themes come first in the order of `recentlyUsed`; the unlisted ones follow in their stored order |
| `Dashboard.DisplayedThemes` | scripts/dashboard.js:25-97 | the grid shows the three presets first, then the stored custom themes, each as often as it is stored, ordered by recent use |
| `Dashboard.SavedThemes` | scripts/dashboard.js:257-271 | creating appends one custom theme with a fresh id and the form's fields behind the unchanged list; editing overwrites name, colours and font of the matching themes only, keeps ids and kinds, and is a no-op for an unknown id |
| `Dashboard.SaveTheme` | scripts/dashboard.js:246-276 | an empty name is rejected with no store write; otherwise exactly one write, of the `themes` key |
| `Dashboard.SaveThemeEffect` | scripts/dashboard.js:254-273 | a save changes only `themes`; a created theme is found by its new id; a `currentTheme` that resolved before still resolves |
| `Dashboard.DeleteTheme` | scripts/dashboard.js:279-297 | a cancelled confirm writes nothing; otherwise the filtered list is written last, preceded exactly when `currentTheme` named the deleted theme by a first write that holds only `currentTheme: pastel-paradise` |
| `Seqs.FilterCount` | scripts/dashboard.js:288 | `filter` keeps every occurrence of an element that passes and none of the others |
| `Seqs.FilterPrefixClosed` | scripts/dashboard.js:309 | a prefix of a filtered list without duplicates that holds an element holds every earlier passing element |
| `Dashboard.DeleteThemeEffect` | scripts/dashboard.js:284-295 | after a delete no theme has the deleted id, every other theme survives in its order and with its number of occurrences, `currentTheme` falls back to `pastel-paradise` exactly when it was the deleted id, and no other key changes |
| `Dashboard.DeleteNeverDangles` | scripts/dashboard.js:290-295 | after each write of a delete, a `currentTheme` that named a preset or saved theme still does |
| `Dashboard.UpdateRecent` | scripts/dashboard.js:309 | the new list starts with the applied id, holds it once, and has at most five entries, as many as fit of the old entries that differ from the id (which old entries survive is stated by `Dashboard.RecentlyUsedOrder`) |
| `Dashboard.RecentlyUsedOrder` | scripts/dashboard.js:309 | the other ids keep their relative order from the old list, no duplicates are introduced, below capacity no old id is dropped, and at capacity an old id is kept only if every more recent one is kept too |
| `Dashboard.ApplyTheme` | scripts/dashboard.js:300-322 | apply writes `currentTheme` and `enabled: true`, then only `recentlyUsed`, then sends `toggleTheme` with the theme id to the active tab |
| `Dashboard.ApplyThemeEffect` | scripts/dashboard.js:300-310 | after apply the theme is current, theming is enabled, the id heads the recently-used list, and `themes` and `activeTheme` are untouched |
| `Dashboard.ApplyKeepsResolution` | scripts/dashboard.js:301-304 | applying a listed theme leaves a `currentTheme` that resolves |
| `Content.ApplyToElement` | scripts/content.js:70-87 | processed and skipped elements are left alone; any other element gets the theme and the processed mark, and `cutify-float` exactly when interactive; no other class changes |
| `Content.ApplyTheme` | scripts/content.js:56-68 | the root and the body carry the theme and, like every other element, go through the per-element step, and the starry-night theme appends one star container |
| `Content.RemoveTheme` | scripts/content.js:89-99 | after removal no element carries a theme, the processed mark or an effect class; every element, root and body included, keeps its tag, id and other classes; the star containers stay |
| `Content.Init` | scripts/content.js:9-20 | on load the manager takes `enabled ?? false` and `currentTheme`, and themes the page only when both are truthy |
| `Content.OnMessage` | scripts/content.js:41-54 | only `toggleTheme` changes the page; it sets the manager's fields and themes the page when enabled with a truthy theme, clears it otherwise |
| `Content.OnMutations` | scripts/content.js:22-33 | added element nodes go through the per-element step while enabled with a theme; other nodes and the disabled case are untouched |
| `Content.ObserveTwice` | scripts/content.js:22-33 | observing the same batch of added nodes a second time changes nothing |
| `Content.ObservedShowsTheme` | scripts/content.js:22-33 | while enabled with a theme, every added element that is neither skipped nor already processed comes out processed with the manager's theme |
| `Content.ApplyFreshShows` | scripts/content.js:56-87 | on a page with no processed element, an apply marks every element that is not skipped with that theme |
| `Content.ReapplySame` | scripts/content.js:56-87 | re-applying the theme a page already shows changes nothing but the star containers |
| `Content.ApplyThemed` | scripts/content.js:56-87 | after an apply every element that is not skipped is processed and the root and body show the theme |
| `Content.ApplyIdempotent` | scripts/content.js:71-73 | applying the same theme twice equals applying it once, except for one more star container for starry-night |
| `Content.ReapplyKeepsProcessed` | scripts/content.js:71-73 | a second apply with another theme moves only the root and the body; processed elements keep their first theme |
| `Content.RemoveThenApply` | scripts/content.js:89-99 | after removal a new apply reaches every element that is not skipped with the new theme |
| `Content.RemoveIdempotent` | scripts/content.js:89-99 | removing twice equals removing once |
| `Content.SkipsStayUntouched` | scripts/content.js:101-113 | a `toggleTheme` message, applying or removing, never gives a skipped element the processed mark nor, below the body, a theme |
| `Content.MessageIdempotent` | scripts/content.js:41-54 | a repeated `toggleTheme` message leaves manager and elements as one delivery did; a repeated starry-night apply adds exactly one more star container, any other repeat none |
| `Background.SyncMessage` | scripts/background.js:39-58 | a tab is sent `enabled: true` with `activeTheme` when enabled with a truthy theme, `enabled: false, theme: null` when not enabled, and nothing otherwise |
| `Background.SyncThemeToTab` | scripts/background.js:39-58 | a sync sends at most one message, to that tab only, and none exactly when the decision table says none |
| `Background.OnTabUpdated` | scripts/background.js:2-6 | a tab update syncs the tab only when its status is `complete` |
| `Background.Broadcast` | scripts/background.js:17-28 | every open tab is sent the message once, in order, whether or not earlier sends failed |
| `Background.OnToggleRequest` | scripts/background.js:14-36 | a `toggleTheme` request sends to all tabs, then stores `enabled` and `activeTheme` (null when disabled), leaving `currentTheme`, `themes` and `recentlyUsed` alone; any other action does nothing |
| `Background.InstallDefaults` | scripts/background.js:63-66 | defaults `enabled: false, activeTheme: null` are written only when `enabled` is undefined |
| `Background.SyncAll` | scripts/background.js:69-72 | every open tab receives the same sync message, in order, or none does |
| `Background.OnInstalled` | scripts/background.js:61-73 | an existing store is synced as it is; a fresh one is defaulted and every tab is then sent `enabled: false` |
| `Background.InstallEffect` | scripts/background.js:61-66 | installing never overwrites an `enabled` that is set, and otherwise adds only the two defaults |
| `Popup.ShownId` | scripts/popup.js:14 | the popup resolves a truthy `currentTheme` to itself and anything else to `pastel-paradise` |
| `Popup.ResolveThemeName` | scripts/popup.js:14-32 | a preset id shows the preset's name, another id found among the custom themes shows that theme's name, an unknown id shows `Pastel Paradise` |
| `Popup.NameFromCatalogue` | scripts/popup.js:17-32 | the popup's two-step lookup equals one search of presets followed by custom themes |
| `Popup.NoCurrentShowsDefault` | scripts/popup.js:14-15 | with no current theme the popup shows `Pastel Paradise` |
| `Popup.LoadState` | scripts/popup.js:8-35 | the toggle is on exactly when `enabled` is stored as true |
| `Popup.OnToggleChange` | scripts/popup.js:38-54 | the toggle stores `enabled` alone, then sends `toggleTheme` to the active tab with a truthy theme id |
| `Popup.ToggleEffect` | scripts/popup.js:38-44 | after the toggle the store differs only in `enabled`, and the popup would show the new toggle state with the same theme name |
| `Protocol.SyncBringsTabInLine` | scripts/background.js:39-58 | a delivered sync message leaves the tab themed with `activeTheme` when enabled, cleared when disabled, and nothing is sent only when enabled without a theme |
| `Protocol.LateTabMatchesBroadcast` | scripts/background.js:30-34 | after an enabling toggle request with a theme, a tab synced later gets the whole page the broadcast gave open tabs; after a disabling one it gets the same document, while the manager keeps no id instead of the request's; an enabling request without a theme clears open tabs and sends a later tab nothing |
| `Protocol.ReloadSteps` | scripts/background.js:2-6 | a reload is `init`, then the sync message when there is one and the tab has a listener |
| `Protocol.DashboardApplyReachesTab` | scripts/dashboard.js:316-322 | an applied theme changes the active tab only if the send reaches it; then the manager takes the theme and the page is themed, wholly so when it was untouched |
| `Protocol.DashboardApplyReload` | scripts/dashboard.js:300-322 | a reload after apply shows the applied theme when `activeTheme` is falsy or the same id or the sync is lost; otherwise the manager, root and body take `activeTheme` while an untouched page's elements keep the applied theme |
| `Protocol.BackgroundToggleReload` | scripts/background.js:30-34 | after an enabling toggle, a reload the sync reaches has its manager, root and body on the toggled theme; on an untouched page the other elements keep a truthy stored `currentTheme`, and without one they take the toggled theme; an unreached reload is `init` with theming enabled |
| `Protocol.BackgroundDisableReload` | scripts/background.js:30-34 | after a disabling toggle, a reload the sync reaches ends with a manager holding no theme and a cleared page; an unreached one is the page as loaded under a disabled manager |
| `Protocol.PopupToggleMatchesReload` | scripts/popup.js:38-53 | with a current theme stored, the live tab and a reload agree while `activeTheme` is falsy or the same id; otherwise the reload takes `activeTheme`; switched off, both end bare and the reloaded manager holds no id |
| `Protocol.PopupToggleReloadMismatch` | scripts/popup.js:41 | with neither theme key truthy, switching on themes the reached live tab with `pastel-paradise`, but its reload is the document as loaded under a manager with no theme |

## Left out

- Building the DOM for the dashboard's cards, the modal form, the live preview and the colour swatches: these are rendering with no decisions beyond those modelled.
- The dashboard's preset list is the constant `Themes.PresetThemes`. The popup's name table has the same three names, so its object-key lookup is modelled as a search of that list. An id like `constructor` would hit `Object.prototype` in the popup; that case is not modelled.
- The content script's second theme path (`initTheme`, `updateTheme`, CSS variables and the loading overlay, scripts/content.js:159-258): it sets styles only and makes no decision that the ThemeManager reads.
- Star positions and twinkle timing from `Math.random()`, and the 500 ms loading timers: randomness and clocks. The model counts star containers only.
- The `chrome.*` APIs, `alert`, `confirm` and `Date.now()`: they become parameters (the open tabs and whether each has a listener, the confirmation answer, the timestamp) or are dropped.
- Concurrency: interleavings of handlers, the non-awaited syncs of `onInstalled`, and messages arriving before `ThemeManager.init` has installed its listener. Each handler is one atomic sequential step.
- `Content.OnMutations` visits only the added nodes themselves, not their descendants, exactly as the observer callback does. The star containers are counted, not listed among the document's elements.
- `tabs.onActivated` (scripts/background.js:9-11) calls `syncThemeToTab` unconditionally and is modelled by `Background.SyncThemeToTab` itself.
- `activeTheme` and the `theme` field of messages are modelled as theme id strings, the only values the dashboard, popup and background write or send. The unused second theme path of scripts/content.js:195-215 reads them as theme objects; an object there would reach the ThemeManager as the truthy string `[object Object]`.
- Background.InstallDefaults: `None` stands for both `undefined` and `null`. `onInstalled` tests `enabled === undefined` (scripts/background.js:64), so it would not default a stored `null`, while the model does; no surface ever writes a null `enabled`.
- Colour values and font names are opaque strings: no script parses them.
- Dashboard.RecentlyUsedOrder: the clause that keeps the most recent old ids holds only for a `recentlyUsed` list without duplicate ids, because with duplicates `slice` may keep a later copy of an id and drop an earlier, different one. Every list `UpdateRecent` produces from such a list is again free of duplicates.
- Protocol.DashboardApplyReload, Protocol.BackgroundToggleReload, Protocol.PopupToggleMatchesReload: a reload is `init` followed by one load-complete sync. A second sync from `tabs.onActivated` would carry the same message, and a message delivered twice acts once, up to one more star container for starry-night (`Content.MessageIdempotent`).

=== FILE: Background.dfy ===
/**
 * The background coordinator's decisions: what message a tab is sent when it
 * becomes ready, the fault-isolated broadcast of a toggle request followed by
 * its store write, and the defaults written at install time. Whether a send
 * reaches a tab is part of the given `Tab` record; a failed send is caught
 * and logged, and the coordinator carries on.
 */
module Background {
  import opened Values
  import opened Store

  /** `enabled` read as a JavaScript condition. */
  predicate Enabled(s: Items) {
    OrFalse(s.enabled)
  }

  /** The message `syncThemeToTab` sends, if any. */
  function SyncMessage(s: Items): (r: Option<Message>)
    ensures Enabled(s) && Truthy(ActiveThemeOf(s)) ==> r == Some(ToggleTheme(true, ActiveThemeOf(s)))
    ensures !Enabled(s) ==> r == Some(ToggleTheme(false, None))
    ensures Enabled(s) && !Truthy(ActiveThemeOf(s)) ==> r == None
  {
    var active := ActiveThemeOf(s);
    if Enabled(s) && Truthy(active) then Some(ToggleTheme(true, active))
    else if !Enabled(s) then Some(ToggleTheme(false, None))
    else None
  }

  /** `syncThemeToTab(tab.id)`: at most one send, to that tab only. */
  function SyncThemeToTab(s: Items, tab: Tab): (r: seq<Event>)
    ensures |r| <= 1
    ensures forall i :: 0 <= i < |r| ==> r[i].Send? && r[i].tab == tab.id
    ensures r == [] <==> SyncMessage(s).None?
  {
    match SyncMessage(s)
    case None => []
    case Some(m) => [Send(tab.id, m, tab.reachable)]
  }

  /** `tabs.onUpdated`: a tab is synced once its load is complete. */
  function OnTabUpdated(s: Items, tab: Tab, status: string): (r: seq<Event>)
    ensures status != "complete" ==> r == []
    ensures status == "complete" ==> r == SyncThemeToTab(s, tab)
  {
    if status == "complete" then SyncThemeToTab(s, tab) else []
  }

  /** Sends `msg` to every tab in order; a send that fails does not stop the loop. */
  method Broadcast(tabs: seq<Tab>, msg: Message) returns (trace: seq<Event>)
    ensures |trace| == |tabs|
    ensures forall i :: 0 <= i < |tabs| ==> trace[i] == Send(tabs[i].id, msg, tabs[i].reachable)
  {
    trace := [];
    var i := 0;
    while i < |tabs|
      invariant 0 <= i <= |tabs|
      invariant |trace| == i
      invariant forall k :: 0 <= k < i ==> trace[k] == Send(tabs[k].id, msg, tabs[k].reachable)
    {
      // try { await sendMessage } catch { log }: the outcome is recorded, the loop goes on
      trace := trace + [Send(tabs[i].id, msg, tabs[i].reachable)];
      i := i + 1;
    }
  }

  /** The state the toggle handler persists. */
  function ToggleWrite(enabled: bool, theme: Option<string>): (r: Items)
    ensures r.enabled == Some(enabled)
    ensures enabled ==> r.activeTheme == Some(theme)
    ensures !enabled ==> r.activeTheme == Some(None)
    ensures r.currentTheme.None? && r.themes.None? && r.recentlyUsed.None?
  {
    NoItems.(enabled := Some(enabled), activeTheme := Some(if enabled then theme else None))
  }

  /**
   * The `toggleTheme` handler: one send per open tab, in order, whatever the
   * outcomes, and only then the store write of `enabled` and `activeTheme`.
   */
  method OnToggleRequest(s: Items, msg: Message, tabs: seq<Tab>) returns (trace: seq<Event>)
    ensures !msg.ToggleTheme? ==> trace == []
    ensures msg.ToggleTheme? ==>
      && |trace| == |tabs| + 1
      && (forall i :: 0 <= i < |tabs| ==>
            trace[i] == Send(tabs[i].id, ToggleTheme(msg.enabled, msg.theme), tabs[i].reachable))
      && trace[|tabs|] == Write(ToggleWrite(msg.enabled, msg.theme))
    ensures msg.ToggleTheme? ==> var s' := Replay(s, trace);
      && s'.enabled == Some(msg.enabled)
      && s'.activeTheme == Some(if msg.enabled then msg.theme else None)
      && s'.currentTheme == s.currentTheme
      && s'.themes == s.themes
      && s'.recentlyUsed == s.recentlyUsed
  {
    if !msg.ToggleTheme? {
      return [];
    }
    var sends := Broadcast(tabs, ToggleTheme(msg.enabled, msg.theme));
    trace := sends + [Write(ToggleWrite(msg.enabled, msg.theme))];
    ReplayAppend(s, sends, [Write(ToggleWrite(msg.enabled, msg.theme))]);
    ReplaySendsOnly(s, sends);
  }

  /** The defaults written on install when `enabled` has never been set. */
  function InstallDefaults(s: Items): (r: seq<Event>)
    ensures s.enabled.None? ==> r == [Write(NoItems.(enabled := Some(false), activeTheme := Some(None)))]
    ensures s.enabled.Some? ==> r == []
  {
    if s.enabled.None? then [Write(NoItems.(enabled := Some(false), activeTheme := Some(None)))] else []
  }

  /** `syncThemeToTab` for each tab in turn. */
  function SyncAll(s: Items, tabs: seq<Tab>): (r: seq<Event>)
    ensures SyncMessage(s).None? ==> r == []
    ensures SyncMessage(s).Some? ==>
      && |r| == |tabs|
      && forall i :: 0 <= i < |tabs| ==> r[i] == Send(tabs[i].id, SyncMessage(s).value, tabs[i].reachable)
  {
    if tabs == [] then [] else SyncThemeToTab(s, tabs[0]) + SyncAll(s, tabs[1..])
  }

  /**
   * `onInstalled`: default the store if `enabled` is unset, then sync every
   * open tab from the resulting store.
   */
  function OnInstalled(s: Items, tabs: seq<Tab>): (r: seq<Event>)
    ensures s.enabled.Some? ==> r == SyncAll(s, tabs)
    ensures s.enabled.None? ==> |r| == |tabs| + 1 && r[0].Write?
    ensures s.enabled.None? ==> forall i :: 1 <= i < |r| ==> r[i] == Send(tabs[i - 1].id, ToggleTheme(false, None), tabs[i - 1].reachable)
  {
    var defaults := InstallDefaults(s);
    assert s.enabled.None? ==> Replay(s, defaults) == Replay(Set(s, defaults[0].items), []);
    defaults + SyncAll(Replay(s, defaults), tabs)
  }

  /** Installing never overwrites a store that already has `enabled`; it fills in the defaults otherwise. */
  lemma InstallEffect(s: Items, tabs: seq<Tab>)
    ensures s.enabled.Some? ==> Replay(s, OnInstalled(s, tabs)) == s
    ensures s.enabled.None? ==> var s' := Replay(s, OnInstalled(s, tabs));
      && s'.enabled == Some(false) && s'.activeTheme == Some(None)
      && s'.currentTheme == s.currentTheme && s'.themes == s.themes && s'.recentlyUsed == s.recentlyUsed
  {
    var defaults := InstallDefaults(s);
    var syncs := SyncAll(Replay(s, defaults), tabs);
    ReplayAppend(s, defaults, syncs);
    ReplaySendsOnly(Replay(s, defaults), syncs);
  }
}

=== FILE: Content.dfy ===
/**
 * The content script's ThemeManager: a per-page state machine that marks
 * page elements with the current theme, remembers which elements it has
 * processed so that re-theming is idempotent, and on removal takes off its
 * marks and effect classes (the star containers stay).
 *
 * The document is the root element, the body and the other elements in
 * document order; the root and the body are also visited by the per-element
 * loop, as `getElementsByTagName('*')` returns them too. The stars effect is
 * counted by the number of star containers appended to the body.
 */
module Content {
  import opened Values
  import opened Themes
  import opened Store

  /** An element as the manager sees it: tag, id, classes and its two attributes. */
  datatype Element = Element(
    tag: string,
    id: string,
    classes: set<string>,
    dataTheme: Option<string>,
    processed: bool)

  /** A node a mutation added: only element nodes (nodeType 1) are themed; text, comments and the rest are `OtherNode`. */
  datatype Node = ElementNode(element: Element) | OtherNode

  datatype Doc = Doc(html: Element, body: Element, others: seq<Element>, starContainers: nat)

  /** The manager's fields `enabled` and `currentTheme`. */
  datatype Manager = Manager(enabled: bool, currentTheme: Option<string>)

  /** One page: its manager and its document. */
  datatype Page = Page(manager: Manager, doc: Doc)

  const SkipTags: set<string> := {"SCRIPT", "STYLE"}
  const SkipClasses: set<string> := {"no-theme", "code", "syntax"}
  const SkipIds: set<string> := {"monaco-editor", "code-editor"}
  const InteractiveTags: set<string> := {"BUTTON", "A", "INPUT", "SELECT", "TEXTAREA"}
  const FloatClass: string := "cutify-float"
  const PulseClass: string := "cutify-pulse"

  /** `shouldSkipElement`: script and style tags, and elements with one of the skip classes or ids. */
  function ShouldSkip(e: Element): (r: bool)
    ensures r <==> e.tag == "SCRIPT" || e.tag == "STYLE"
                   || "no-theme" in e.classes || "code" in e.classes || "syntax" in e.classes
                   || e.id == "monaco-editor" || e.id == "code-editor"
  {
    var hit := SkipClasses * e.classes;
    assert hit != {} <==> "no-theme" in hit || "code" in hit || "syntax" in hit by {
      if hit != {} {
        var c :| c in hit;
      }
    }
    e.tag in SkipTags || hit != {} || e.id in SkipIds
  }

  /** `isInteractiveElement`: the five tags a user can click or type into. */
  function IsInteractive(e: Element): (r: bool)
    ensures r <==> e.tag == "BUTTON" || e.tag == "A" || e.tag == "INPUT" || e.tag == "SELECT" || e.tag == "TEXTAREA"
  {
    e.tag in InteractiveTags
  }

  /** `applyThemeToElement`, with `theme` the manager's current theme. */
  function ApplyToElement(e: Element, theme: string): (r: Element)
    ensures r.tag == e.tag && r.id == e.id
    ensures e.processed ==> r == e
    ensures ShouldSkip(e) ==> r == e
    ensures !e.processed && !ShouldSkip(e) ==> r.processed && r.dataTheme == Some(theme)
    ensures (FloatClass in r.classes) <==> FloatClass in e.classes || (!e.processed && !ShouldSkip(e) && IsInteractive(e))
    ensures r.classes - {FloatClass} == e.classes - {FloatClass}
  {
    if e.processed || ShouldSkip(e) then e
    else
      e.(dataTheme := Some(theme), processed := true,
         classes := if IsInteractive(e) then e.classes + {FloatClass} else e.classes)
  }

  function ApplyToAll(es: seq<Element>, theme: string): (r: seq<Element>)
    ensures |r| == |es|
    ensures forall i :: 0 <= i < |es| ==> r[i] == ApplyToElement(es[i], theme)
  {
    seq(|es|, i requires 0 <= i < |es| => ApplyToElement(es[i], theme))
  }

  function SetTheme(e: Element, theme: string): Element {
    e.(dataTheme := Some(theme))
  }

  /** `applyTheme`: mark the root and the body, visit every element, add the effects. */
  function ApplyTheme(d: Doc, theme: string): (r: Doc)
    ensures r.html.dataTheme == Some(theme) && r.body.dataTheme == Some(theme)
    ensures r.html == ApplyToElement(d.html.(dataTheme := Some(theme)), theme)
    ensures r.body == ApplyToElement(d.body.(dataTheme := Some(theme)), theme)
    ensures |r.others| == |d.others|
    ensures forall i :: 0 <= i < |d.others| ==> r.others[i] == ApplyToElement(d.others[i], theme)
    ensures r.starContainers == d.starContainers + (if theme == StarryNightId then 1 else 0)
  {
    Doc(ApplyToElement(SetTheme(d.html, theme), theme),
        ApplyToElement(SetTheme(d.body, theme), theme),
        ApplyToAll(d.others, theme),
        if theme == StarryNightId then d.starContainers + 1 else d.starContainers)
  }

  /** Removes the two attributes and the two effect classes from one element. */
  function Clear(e: Element): Element {
    e.(dataTheme := None, processed := false, classes := e.classes - {FloatClass, PulseClass})
  }

  /** `removeTheme`. The star containers are not removed. */
  function RemoveTheme(d: Doc): (r: Doc)
    ensures Cleared(r)
    ensures r.starContainers == d.starContainers
    ensures r.html.tag == d.html.tag && r.html.id == d.html.id
    ensures r.html.classes == d.html.classes - {FloatClass, PulseClass}
    ensures r.body.tag == d.body.tag && r.body.id == d.body.id
    ensures r.body.classes == d.body.classes - {FloatClass, PulseClass}
    ensures |r.others| == |d.others|
    ensures forall i :: 0 <= i < |d.others| ==>
      && r.others[i].tag == d.others[i].tag && r.others[i].id == d.others[i].id
      && r.others[i].classes == d.others[i].classes - {FloatClass, PulseClass}
  {
    Doc(Clear(d.html), Clear(d.body), seq(|d.others|, i requires 0 <= i < |d.others| => Clear(d.others[i])),
        d.starContainers)
  }

  /** No element carries a theme attribute, the processed marker or an effect class. */
  ghost predicate Cleared(d: Doc) {
    && NoMarks(d.html) && NoMarks(d.body)
    && forall i :: 0 <= i < |d.others| ==> NoMarks(d.others[i])
  }

  predicate NoMarks(e: Element) {
    e.dataTheme.None? && !e.processed && FloatClass !in e.classes && PulseClass !in e.classes
  }

  /** The root and the body show `theme` and every element that is not skipped has been processed. */
  ghost predicate Themed(d: Doc, theme: string) {
    && d.html.dataTheme == Some(theme) && d.body.dataTheme == Some(theme)
    && (d.html.processed || ShouldSkip(d.html))
    && (d.body.processed || ShouldSkip(d.body))
    && forall i :: 0 <= i < |d.others| ==> d.others[i].processed || ShouldSkip(d.others[i])
  }

  /** A page the manager has not yet touched: no element carries the processed marker. */
  ghost predicate Fresh(d: Doc) {
    && !d.html.processed && !d.body.processed
    && forall i :: 0 <= i < |d.others| ==> !d.others[i].processed
  }

  /** `Themed`, and every element below the body that is not skipped carries `theme` itself. */
  ghost predicate ShowsTheme(d: Doc, theme: string) {
    && Themed(d, theme)
    && forall i :: 0 <= i < |d.others| && !ShouldSkip(d.others[i]) ==> d.others[i].dataTheme == Some(theme)
  }

  /** Skipped elements never carry the processed marker; below the body they carry no theme either. */
  ghost predicate SkipsUntouched(d: Doc) {
    && (ShouldSkip(d.html) ==> !d.html.processed)
    && (ShouldSkip(d.body) ==> !d.body.processed)
    && forall i :: 0 <= i < |d.others| && ShouldSkip(d.others[i]) ==>
         !d.others[i].processed && d.others[i].dataTheme.None?
  }

  /** `init`: read the store; theme the page only when enabled with a current theme. */
  function Init(stored: Items, d: Doc): (r: Page)
    ensures r.manager == Manager(OrFalse(stored.enabled), stored.currentTheme)
    ensures OrFalse(stored.enabled) && Truthy(stored.currentTheme) ==> Themed(r.doc, stored.currentTheme.value)
    ensures !(OrFalse(stored.enabled) && Truthy(stored.currentTheme)) ==> r.doc == d
  {
    var m := Manager(OrFalse(stored.enabled), stored.currentTheme);
    if m.enabled && Truthy(m.currentTheme) then
      ApplyThemed(d, m.currentTheme.value);
      Page(m, ApplyTheme(d, m.currentTheme.value))
    else Page(m, d)
  }

  /** The message listener: only `toggleTheme` changes the page. */
  function OnMessage(p: Page, msg: Message): (r: Page)
    ensures !msg.ToggleTheme? ==> r == p
    ensures msg.ToggleTheme? ==> r.manager == Manager(msg.enabled, msg.theme)
    ensures msg.ToggleTheme? && msg.enabled && Truthy(msg.theme) ==> Themed(r.doc, msg.theme.value)
    ensures msg.ToggleTheme? && !(msg.enabled && Truthy(msg.theme)) ==> Cleared(r.doc)
  {
    match msg
    case Other(_) => p
    case ToggleTheme(enabled, theme) =>
      var m := Manager(enabled, theme);
      if enabled && Truthy(theme) then
        ApplyThemed(p.doc, theme.value);
        Page(m, ApplyTheme(p.doc, theme.value))
      else Page(m, RemoveTheme(p.doc))
  }

  /** The mutation observer: added element nodes are themed only while enabled with a theme. */
  function OnMutations(m: Manager, added: seq<Node>): (r: seq<Node>)
    ensures |r| == |added|
    ensures !(m.enabled && Truthy(m.currentTheme)) ==> r == added
    ensures forall i :: 0 <= i < |added| && added[i].OtherNode? ==> r[i] == added[i]
    ensures m.enabled && Truthy(m.currentTheme) ==>
      forall i :: 0 <= i < |added| && added[i].ElementNode? ==>
        r[i] == ElementNode(ApplyToElement(added[i].element, m.currentTheme.value))
  {
    if m.enabled && Truthy(m.currentTheme) then
      seq(|added|, i requires 0 <= i < |added| =>
        match added[i]
        case ElementNode(e) => ElementNode(ApplyToElement(e, m.currentTheme.value))
        case OtherNode => added[i])
    else added
  }

  /**
   * Observing the same batch a second time changes nothing: every element
   * node the first pass themed is now processed and is left alone.
   */
  lemma ObserveTwice(m: Manager, added: seq<Node>)
    ensures OnMutations(m, OnMutations(m, added)) == OnMutations(m, added)
  {
    var once := OnMutations(m, added);
    var twice := OnMutations(m, once);
    if m.enabled && Truthy(m.currentTheme) {
      forall i | 0 <= i < |added|
        ensures twice[i] == once[i]
      {
        if added[i].ElementNode? {
          assert once[i] == ElementNode(ApplyToElement(added[i].element, m.currentTheme.value));
        }
      }
    }
  }

  /**
   * While enabled with a theme, every added element that is neither skipped
   * nor already processed comes out processed and carrying the manager's
   * theme, so content added after an apply matches an untouched page's.
   */
  lemma ObservedShowsTheme(m: Manager, added: seq<Node>)
    requires m.enabled && Truthy(m.currentTheme)
    ensures var r := OnMutations(m, added);
      forall i :: 0 <= i < |added| && added[i].ElementNode? && !added[i].element.processed
                  && !ShouldSkip(added[i].element) ==>
        r[i].ElementNode? && r[i].element.processed && r[i].element.dataTheme == m.currentTheme
  {
  }

  lemma ApplyThemed(d: Doc, theme: string)
    ensures Themed(ApplyTheme(d, theme), theme)
  {
  }

  /** On an untouched page, an apply marks every element that is not skipped with that theme. */
  lemma ApplyFreshShows(d: Doc, theme: string)
    requires Fresh(d)
    ensures ShowsTheme(ApplyTheme(d, theme), theme)
  {
  }

  /** Re-applying the theme a page is already themed with changes nothing but the star containers. */
  lemma ReapplySame(d: Doc, theme: string)
    requires Themed(d, theme)
    ensures ApplyTheme(d, theme) == d.(starContainers := ApplyTheme(d, theme).starContainers)
  {
    assert SetTheme(d.html, theme) == d.html;
    assert SetTheme(d.body, theme) == d.body;
    assert ApplyTheme(d, theme).others == d.others;
  }

  /**
   * Applying a theme twice is applying it once, except that the starry-night
   * theme appends one more star container on each call.
   */
  lemma ApplyIdempotent(d: Doc, theme: string)
    ensures var once := ApplyTheme(d, theme);
      var twice := ApplyTheme(once, theme);
      && twice.html == once.html && twice.body == once.body && twice.others == once.others
      && twice.starContainers == once.starContainers + (if theme == StarryNightId then 1 else 0)
  {
    var once := ApplyTheme(d, theme);
    var twice := ApplyTheme(once, theme);
    assert SetTheme(once.html, theme) == once.html;
    assert SetTheme(once.body, theme) == once.body;
    assert twice.others == once.others;
  }

  /**
   * Re-applying with another theme moves the root and the body to it, while
   * every element below them keeps the theme it was first processed with.
   */
  lemma ReapplyKeepsProcessed(d: Doc, first: string, second: string)
    ensures var d1 := ApplyTheme(d, first);
      var d2 := ApplyTheme(d1, second);
      && d2.html.dataTheme == Some(second) && d2.body.dataTheme == Some(second)
      && d2.others == d1.others
  {
    var d1 := ApplyTheme(d, first);
    assert ApplyTheme(d1, second).others == d1.others;
  }

  /** After a removal, a later apply processes every element that is not skipped, with the new theme. */
  lemma RemoveThenApply(d: Doc, theme: string)
    ensures var r := ApplyTheme(RemoveTheme(d), theme);
      forall i :: 0 <= i < |r.others| && !ShouldSkip(d.others[i]) ==>
        r.others[i].processed && r.others[i].dataTheme == Some(theme)
  {
    var c := RemoveTheme(d);
    forall i | 0 <= i < |d.others| && !ShouldSkip(d.others[i])
      ensures !ShouldSkip(c.others[i])
    {
      assert SkipClasses * c.others[i].classes == SkipClasses * d.others[i].classes;
    }
  }

  /** Removing twice is removing once. */
  lemma RemoveIdempotent(d: Doc)
    ensures RemoveTheme(RemoveTheme(d)) == RemoveTheme(d)
  {
    var once := RemoveTheme(d);
    forall e: Element
      ensures Clear(Clear(e)) == Clear(e)
    {
      assert Clear(e).classes - {FloatClass, PulseClass} == Clear(e).classes;
    }
    assert RemoveTheme(once).others == once.others;
  }

  /** A `toggleTheme` message, whether it applies or removes, keeps skipped elements free of the theme marks. */
  lemma SkipsStayUntouched(p: Page, msg: Message)
    requires SkipsUntouched(p.doc)
    ensures SkipsUntouched(OnMessage(p, msg).doc)
  {
    var d := p.doc;
    if msg.ToggleTheme? {
      if msg.enabled && Truthy(msg.theme) {
        var r := ApplyTheme(d, msg.theme.value);
        assert ShouldSkip(r.html) == ShouldSkip(d.html);
        assert ShouldSkip(r.body) == ShouldSkip(d.body);
      } else {
        var r := RemoveTheme(d);
        assert forall i :: 0 <= i < |r.others| ==> !r.others[i].processed;
      }
    }
  }

  /** Delivering the same `toggleTheme` message twice leaves the page as one delivery did, up to star containers. */
  lemma MessageIdempotent(p: Page, msg: Message)
    ensures var once := OnMessage(p, msg);
      var twice := OnMessage(once, msg);
      && twice.manager == once.manager
      && twice.doc.html == once.doc.html && twice.doc.body == once.doc.body
      && twice.doc.others == once.doc.others
      && twice.doc.starContainers == once.doc.starContainers
           + (if msg.ToggleTheme? && msg.enabled && msg.theme == Some(StarryNightId) then 1 else 0)
  {
    if msg.ToggleTheme? {
      if msg.enabled && Truthy(msg.theme) {
        ApplyIdempotent(p.doc, msg.theme.value);
      } else {
        RemoveIdempotent(p.doc);
      }
    }
  }
}

=== FILE: Dashboard.dfy ===
/**
 * The dashboard's operations on the theme collection: save (create or edit),
 * delete, apply with the bounded recently-used list, and the listing order.
 * Each handler is one sequential step that returns the store writes and tab
 * sends it performs, in order. `Date.now()` and the `confirm()` answer are
 * parameters.
 */
module Dashboard {
  import opened Values
  import opened Seqs
  import opened Themes
  import opened Store
  import opened ThemeOrder

  /** Capacity of the `recentlyUsed` list (`slice(0, 5)`). */
  const RecentCapacity: nat := 5

  /** `'custom-' + Date.now()` */
  function CustomId(now: nat): (r: string)
    ensures |r| > 7 && r[..7] == "custom-"
    ensures forall i :: 7 <= i < |r| ==> '0' <= r[i] <= '9'
  {
    "custom-" + Decimal(now)
  }

  /** Custom themes created at different instants get different ids. */
  lemma CustomIdInjective(a: nat, b: nat)
    requires CustomId(a) == CustomId(b)
    ensures a == b
  {
    assert Decimal(a) == CustomId(a)[7..] == CustomId(b)[7..] == Decimal(b);
    DecimalInjective(a, b);
  }

  /** No custom id collides with a preset id. */
  lemma CustomIdNotPreset(now: nat)
    ensures !IsPresetId(CustomId(now))
  {
    var id := CustomId(now);
    assert id[0] == 'c';
  }

  /** `{ ...theme, ...themeData }`: the form's fields replace the stored ones. */
  function Overwrite(t: Theme, data: ThemeData): (r: Theme)
    ensures r.id == t.id && r.kind == t.kind
    ensures r.name == data.name && r.colors == data.colors && r.fontFamily == Some(data.fontFamily)
  {
    t.(name := data.name, colors := data.colors, fontFamily := Some(data.fontFamily))
  }

  function EditedBy(editingId: string, data: ThemeData): Theme -> Theme {
    (t: Theme) => if t.id == editingId then Overwrite(t, data) else t
  }

  /** The `themes` list `saveTheme` writes, for a non-empty name. */
  function SavedThemes(themes: seq<Theme>, editingId: Option<string>, data: ThemeData, now: nat): (r: seq<Theme>)
    ensures !Truthy(editingId) ==>
      && |r| == |themes| + 1
      && r[..|themes|] == themes
      && r[|themes|] == Theme(CustomId(now), data.name, Custom, data.colors, Some(data.fontFamily))
    ensures Truthy(editingId) ==>
      && |r| == |themes|
      && (forall i :: 0 <= i < |themes| && themes[i].id != editingId.value ==> r[i] == themes[i])
      && (forall i :: 0 <= i < |themes| && themes[i].id == editingId.value ==>
            && r[i].id == themes[i].id && r[i].kind == themes[i].kind
            && r[i].name == data.name && r[i].colors == data.colors
            && r[i].fontFamily == Some(data.fontFamily))
    ensures Truthy(editingId) && FindById(themes, editingId.value).None? ==> r == themes
  {
    if Truthy(editingId) then
      Map(EditedBy(editingId.value, data), themes)
    else
      themes + [Theme(CustomId(now), data.name, Custom, data.colors, Some(data.fontFamily))]
  }

  /** `saveTheme`: an empty name is rejected before any store access. */
  function SaveTheme(s: Items, editingId: Option<string>, data: ThemeData, now: nat): (r: seq<Event>)
    ensures data.name == "" ==> r == []
    ensures data.name != "" ==>
      r == [Write(NoItems.(themes := Some(SavedThemes(ThemesOf(s), editingId, data, now))))]
  {
    if data.name == "" then []
    else [Write(NoItems.(themes := Some(SavedThemes(ThemesOf(s), editingId, data, now))))]
  }

  /**
   * A save replaces only the `themes` key. A created theme can be found by
   * its new id when no saved theme had that id, and an edit keeps every id,
   * so a `currentTheme` that resolved before still resolves.
   */
  lemma {:induction false} SaveThemeEffect(s: Items, editingId: Option<string>, data: ThemeData, now: nat)
    requires data.name != ""
    ensures var s' := Replay(s, SaveTheme(s, editingId, data, now));
      && s' == s.(themes := Some(SavedThemes(ThemesOf(s), editingId, data, now)))
      && (!Truthy(editingId) && FindById(ThemesOf(s), CustomId(now)).None? ==>
            FindById(Catalogue(s'), CustomId(now))
              == Some(Theme(CustomId(now), data.name, Custom, data.colors, Some(data.fontFamily))))
      && (CurrentResolves(s) ==> CurrentResolves(s'))
  {
    var themes := ThemesOf(s);
    var saved := SavedThemes(themes, editingId, data, now);
    var s' := s.(themes := Some(saved));
    var r := SaveTheme(s, editingId, data, now);
    assert r[1..] == [];
    assert Replay(s, r) == Replay(Set(s, r[0].items), r[1..]);
    assert ThemesOf(s') == saved;
    var t := Theme(CustomId(now), data.name, Custom, data.colors, Some(data.fontFamily));
    if !Truthy(editingId) && FindById(themes, CustomId(now)).None? {
      CustomIdNotPreset(now);
      FindByIdAppend(PresetThemes, saved, CustomId(now));
      assert saved == themes + [t];
      FindByIdAppend(themes, [t], CustomId(now));
      assert FindById([t], CustomId(now)) == Some(t);
    }
    if CurrentResolves(s) && s.currentTheme.Some? {
      var id := s.currentTheme.value;
      FindByIdAppend(PresetThemes, themes, id);
      FindByIdAppend(PresetThemes, saved, id);
      if FindById(PresetThemes, id).None? {
        assert FindById(themes, id).Some?;
        if Truthy(editingId) {
          assert FindById(saved, id).Some?;
        } else {
          assert saved == themes + [t];
          FindByIdAppend(themes, [t], id);
        }
      }
    }
  }

  function IdIsNot(id: string): Theme -> bool {
    (t: Theme) => t.id != id
  }

  /** `deleteTheme`: a cancelled confirmation changes nothing. */
  function DeleteTheme(s: Items, themeId: string, confirmed: bool): (r: seq<Event>)
    ensures !confirmed ==> r == []
    ensures confirmed ==> |r| == (if s.currentTheme == Some(themeId) then 2 else 1)
    ensures confirmed && s.currentTheme == Some(themeId) ==> r[0] == Write(NoItems.(currentTheme := Some(DefaultThemeId)))
    ensures confirmed ==> r[|r| - 1] == Write(NoItems.(themes := Some(Filter(IdIsNot(themeId), ThemesOf(s)))))
  {
    if !confirmed then []
    else
      var fallback := if s.currentTheme == Some(themeId)
        then [Write(NoItems.(currentTheme := Some(DefaultThemeId)))]
        else [];
      fallback + [Write(NoItems.(themes := Some(Filter(IdIsNot(themeId), ThemesOf(s)))))]
  }

  /**
   * After a confirmed delete no theme has the deleted id, the others keep
   * their order, `currentTheme` falls back to the default exactly when it
   * named the deleted theme, and no other key changes.
   */
  lemma DeleteThemeEffect(s: Items, themeId: string)
    ensures var s' := Replay(s, DeleteTheme(s, themeId, true));
      && s'.themes.Some?
      && (forall i :: 0 <= i < |s'.themes.value| ==> s'.themes.value[i].id != themeId)
      && (forall i :: 0 <= i < |ThemesOf(s)| && ThemesOf(s)[i].id != themeId ==> ThemesOf(s)[i] in s'.themes.value)
      && IsSubsequence(s'.themes.value, ThemesOf(s))
      && (forall i :: 0 <= i < |ThemesOf(s)| && ThemesOf(s)[i].id != themeId ==>
            multiset(s'.themes.value)[ThemesOf(s)[i]] == multiset(ThemesOf(s))[ThemesOf(s)[i]])
      && (s.currentTheme == Some(themeId) ==> s'.currentTheme == Some(DefaultThemeId))
      && (s.currentTheme != Some(themeId) ==> s'.currentTheme == s.currentTheme)
      && s'.recentlyUsed == s.recentlyUsed
      && s'.enabled == s.enabled
      && s'.activeTheme == s.activeTheme
  {
    var kept := Filter(IdIsNot(themeId), ThemesOf(s));
    FilterIsSubsequence(IdIsNot(themeId), ThemesOf(s));
    FilterCount(IdIsNot(themeId), ThemesOf(s));
    var r := DeleteTheme(s, themeId, true);
    if s.currentTheme == Some(themeId) {
      assert r == [r[0]] + [r[1]];
      ReplayAppend(s, [r[0]], [r[1]]);
    }
  }

  /** The writes of a delete never expose a `currentTheme` that names nothing. */
  lemma DeleteNeverDangles(s: Items, themeId: string, confirmed: bool, n: nat)
    requires CurrentResolves(s)
    requires n <= |DeleteTheme(s, themeId, confirmed)|
    ensures CurrentResolves(Replay(s, DeleteTheme(s, themeId, confirmed)[..n]))
  {
    var r := DeleteTheme(s, themeId, confirmed);
    var kept := Filter(IdIsNot(themeId), ThemesOf(s));
    FindByIdAppend(PresetThemes, ThemesOf(s), DefaultThemeId);
    assert PresetThemes[0].id == DefaultThemeId;
    if n == 0 {
      assert r[..n] == [];
    } else if confirmed && s.currentTheme == Some(themeId) {
      // first the fallback, then the filtered list
      var s1 := Set(s, NoItems.(currentTheme := Some(DefaultThemeId)));
      assert Replay(s, r[..1]) == s1;
      if n == 2 {
        assert r[..n] == r;
        assert r == [r[0]] + [r[1]];
        ReplayAppend(s, [r[0]], [r[1]]);
        FindByIdAppend(PresetThemes, kept, DefaultThemeId);
      }
    } else if confirmed {
      assert r[..n] == r;
      var cur := s.currentTheme;
      if cur.Some? {
        var id := cur.value;
        FindByIdAppend(PresetThemes, ThemesOf(s), id);
        FindByIdAppend(PresetThemes, kept, id);
        if FindById(PresetThemes, id).None? {
          var t := FindById(ThemesOf(s), id).value;
          assert t in ThemesOf(s) && IdIsNot(themeId)(t);
          var i :| 0 <= i < |ThemesOf(s)| && ThemesOf(s)[i] == t;
          assert t in kept;
          var j :| 0 <= j < |kept| && kept[j] == t;
          assert FindById(kept, id).Some?;
        }
      }
    }
  }

  /**
   * `[id, ...recent.filter(x => x !== id)].slice(0, 5)`: the id first and
   * only once, then the other ids in their previous order, at most five in all.
   */
  function UpdateRecent(recent: seq<string>, id: string): (r: seq<string>)
    ensures 1 <= |r| <= RecentCapacity
    ensures r[0] == id
    ensures forall i :: 1 <= i < |r| ==> r[i] != id
    ensures |r| == Min(RecentCapacity, 1 + |Filter(Differs(id), recent)|)
  {
    var l := [id] + Filter(Differs(id), recent);
    if |l| <= RecentCapacity then l else l[..RecentCapacity]
  }

  function Differs(id: string): string -> bool {
    (x: string) => x != id
  }

  /** The ids after the first keep their relative order in the old list; no duplicates appear. */
  lemma RecentlyUsedOrder(recent: seq<string>, id: string)
    ensures var r := UpdateRecent(recent, id);
      && IsSubsequence(r[1..], recent)
      && (forall i :: 1 <= i < |r| ==> r[i] in recent)
      && (NoDuplicates(recent) ==> NoDuplicates(r))
      && (|r| < RecentCapacity ==> forall i :: 0 <= i < |recent| ==> recent[i] in r)
      && (NoDuplicates(recent) ==>
            forall i, j :: 0 <= i < j < |recent| && recent[i] != id && recent[j] != id && recent[j] in r ==>
              recent[i] in r)
  {
    var rest := Filter(Differs(id), recent);
    var r := UpdateRecent(recent, id);
    assert r[1..] <= rest;
    PrefixIsSubsequence(r[1..], rest);
    FilterIsSubsequence(Differs(id), recent);
    SubsequenceTransitive(r[1..], rest, recent);
    SubsequenceMembers(r[1..], recent);
    assert forall i :: 1 <= i < |r| ==> r[i] == r[1..][i - 1];
    if NoDuplicates(recent) {
      SubsequenceNoDuplicates(r[1..], recent);
      assert id !in r[1..];
      ConsNoDuplicates(id, r[1..]);
      assert r == [id] + r[1..];
    }
    if NoDuplicates(recent) {
      RecentKeepsNewer(recent, id);
    }
    if |r| < RecentCapacity {
      RecentBelowCapacity(recent, id);
    }
  }

  /** At capacity, an old id other than the applied one is kept only if every more recent one is. */
  lemma RecentKeepsNewer(recent: seq<string>, id: string)
    requires NoDuplicates(recent)
    ensures var r := UpdateRecent(recent, id);
      forall i, j :: 0 <= i < j < |recent| && recent[i] != id && recent[j] != id && recent[j] in r ==>
        recent[i] in r
  {
    var rest := Filter(Differs(id), recent);
    var r := UpdateRecent(recent, id);
    var k := |r| - 1;
    assert r == [id] + rest[..k];
    forall i, j | 0 <= i < j < |recent| && recent[i] != id && recent[j] != id && recent[j] in r
      ensures recent[i] in r
    {
      assert recent[j] in rest[..k];
      FilterPrefixClosed(Differs(id), recent, k, i, j);
    }
  }

  /** Below capacity, no old id is dropped. */
  lemma RecentBelowCapacity(recent: seq<string>, id: string)
    requires |UpdateRecent(recent, id)| < RecentCapacity
    ensures forall i :: 0 <= i < |recent| ==> recent[i] in UpdateRecent(recent, id)
  {
    var rest := Filter(Differs(id), recent);
    var r := UpdateRecent(recent, id);
    assert r == [id] + rest;
    forall i | 0 <= i < |recent|
      ensures recent[i] in r
    {
      if recent[i] != id {
        assert Differs(id)(recent[i]);
        assert recent[i] in rest;
      }
    }
  }

  /** `applyTheme`: select the theme, record it as most recently used, tell the active tab. */
  function ApplyTheme(s: Items, theme: Theme, activeTab: Tab): (r: seq<Event>)
    ensures |r| == 3
    ensures r[0] == Write(NoItems.(currentTheme := Some(theme.id), enabled := Some(true)))
    ensures r[1].Write? && r[1].items == NoItems.(recentlyUsed := r[1].items.recentlyUsed)
    ensures r[2] == Send(activeTab.id, ToggleTheme(true, Some(theme.id)), activeTab.reachable)
  {
    var first := NoItems.(currentTheme := Some(theme.id), enabled := Some(true));
    var recent := RecentOf(Set(s, first));
    [Write(first),
     Write(NoItems.(recentlyUsed := Some(UpdateRecent(recent, theme.id)))),
     Send(activeTab.id, ToggleTheme(true, Some(theme.id)), activeTab.reachable)]
  }

  /**
   * After apply the store selects the theme and enables theming; the theme
   * heads the recently-used list; the custom themes and the background's
   * `activeTheme` are untouched.
   */
  lemma ApplyThemeEffect(s: Items, theme: Theme, activeTab: Tab)
    ensures var s' := Replay(s, ApplyTheme(s, theme, activeTab));
      && s'.currentTheme == Some(theme.id)
      && s'.enabled == Some(true)
      && s'.recentlyUsed == Some(UpdateRecent(RecentOf(s), theme.id))
      && s'.themes == s.themes
      && s'.activeTheme == s.activeTheme
  {
    var r := ApplyTheme(s, theme, activeTab);
    assert r == [r[0]] + [r[1]] + [r[2]];
    ReplayAppend(s, [r[0]] + [r[1]], [r[2]]);
    ReplayAppend(s, [r[0]], [r[1]]);
  }

  /** Applying a listed theme keeps `currentTheme` resolvable. */
  lemma ApplyKeepsResolution(s: Items, theme: Theme, activeTab: Tab)
    requires theme in Catalogue(s)
    ensures CurrentResolves(Replay(s, ApplyTheme(s, theme, activeTab)))
  {
    ApplyThemeEffect(s, theme, activeTab);
    var i :| 0 <= i < |Catalogue(s)| && Catalogue(s)[i] == theme;
  }

  /** `loadThemes` then `displayThemes`: presets first, then the custom themes by recent use. */
  function DisplayedThemes(s: Items): (r: seq<Theme>)
    ensures |r| == |PresetThemes| + |ThemesOf(s)|
    ensures r[..|PresetThemes|] == PresetThemes
    ensures multiset(r[|PresetThemes|..]) == multiset(ThemesOf(s))
    ensures SortedByRank(r[|PresetThemes|..], RecentOf(s))
  {
    var sorted := SortByRecent(ThemesOf(s), RecentOf(s));
    assert |sorted| == |multiset(sorted)| == |ThemesOf(s)|;
    assert (PresetThemes + sorted)[|PresetThemes|..] == sorted;
    PresetThemes + sorted
  }
}

=== FILE: Popup.dfy ===
/**
 * The popup: the state it shows when opened (the toggle and the name of the
 * current theme) and what flipping the toggle writes and sends.
 *
 * The popup resolves a theme name from its own table of the three preset
 * names first and then from the saved custom themes; an id that is missing
 * or empty stands for the default preset, and an id found nowhere shows the
 * default preset's name.
 */
module Popup {
  import opened Values
  import opened Themes
  import opened Store

  /** What the popup shows: the toggle's state and the current theme's name. */
  datatype View = View(toggleChecked: bool, themeName: string)

  /** The id the popup resolves: `currentTheme || 'pastel-paradise'`. */
  function ShownId(s: Items): (r: string)
    ensures Truthy(s.currentTheme) ==> r == s.currentTheme.value
    ensures !Truthy(s.currentTheme) ==> r == DefaultThemeId
  {
    OrElse(s.currentTheme, DefaultThemeId)
  }

  /** The theme name `loadState` displays. */
  function ResolveThemeName(s: Items): (r: string)
    ensures IsPresetId(ShownId(s)) ==> r == FindById(PresetThemes, ShownId(s)).value.name
    ensures !IsPresetId(ShownId(s)) && FindById(ThemesOf(s), ShownId(s)).Some? ==>
      r == FindById(ThemesOf(s), ShownId(s)).value.name
    ensures FindById(Catalogue(s), ShownId(s)).None? ==> r == DefaultThemeName
  {
    var id := ShownId(s);
    FindByIdAppend(PresetThemes, ThemesOf(s), id);
    var preset := FindById(PresetThemes, id);
    if preset.Some? then preset.value.name
    else if s.themes.Some? then
      var custom := FindById(s.themes.value, id);
      if custom.Some? then custom.value.name else DefaultThemeName
    else DefaultThemeName
  }

  /**
   * The popup's two-step lookup agrees with one search of the catalogue: the
   * name shown is that of the first theme with the resolved id, presets
   * before custom themes, or the default name when there is none.
   */
  lemma {:induction false} NameFromCatalogue(s: Items)
    ensures var found := FindById(Catalogue(s), ShownId(s));
      ResolveThemeName(s) == if found.Some? then found.value.name else DefaultThemeName
  {
    FindByIdAppend(PresetThemes, ThemesOf(s), ShownId(s));
  }

  /** With no current theme stored, the popup names the default preset. */
  lemma NoCurrentShowsDefault(s: Items)
    requires !Truthy(s.currentTheme)
    ensures ResolveThemeName(s) == DefaultThemeName
  {
    assert PresetThemes[0].id == DefaultThemeId;
  }

  /** `loadState`: the toggle shows `enabled ?? false`. */
  function LoadState(s: Items): (r: View)
    ensures r.toggleChecked <==> s.enabled == Some(true)
    ensures r.themeName == ResolveThemeName(s)
  {
    View(OrFalse(s.enabled), ResolveThemeName(s))
  }

  /**
   * The toggle's change handler: it stores only `enabled`, then sends the
   * toggle to the active tab with the resolved current theme id.
   */
  function OnToggleChange(s: Items, checked: bool, activeTab: Tab): (r: seq<Event>)
    ensures |r| == 2
    ensures r[0] == Write(NoItems.(enabled := Some(checked)))
    ensures r[1].Send? && r[1].tab == activeTab.id && r[1].delivered == activeTab.reachable
    ensures r[1].msg == ToggleTheme(checked, Some(ShownId(s)))
    ensures Truthy(r[1].msg.theme)
  {
    [Write(NoItems.(enabled := Some(checked))),
     Send(activeTab.id, ToggleTheme(checked, Some(OrElse(s.currentTheme, DefaultThemeId))), activeTab.reachable)]
  }

  /** The toggle changes `enabled` and nothing else the popup reads or shows. */
  lemma {:induction false} ToggleEffect(s: Items, checked: bool, activeTab: Tab)
    ensures var s' := Replay(s, OnToggleChange(s, checked, activeTab));
      && s' == s.(enabled := Some(checked))
      && LoadState(s') == View(checked, ResolveThemeName(s))
  {
    var r := OnToggleChange(s, checked, activeTab);
    assert r[1..][1..] == [];
    assert Replay(s, r) == Replay(Set(s, r[0].items), r[1..]);
    assert Replay(Set(s, r[0].items), r[1..]) == Replay(Set(s, r[0].items), r[1..][1..]);
  }
}

=== FILE: Protocol.dfy ===
/**
 * How the four surfaces fit together: a store write by one surface and a
 * message to a tab should leave the tab showing what a reload of that tab,
 * or a tab that finishes loading later, would show.
 *
 * The dashboard and the popup write `currentTheme`, which the content
 * script reads on load; the background writes `activeTheme`, which only the
 * background reads and sends. A reload is modelled as the content script's
 * `init` followed by the sync the background sends once the tab's load is
 * complete. The lemmas below say where the live tab and a reloaded tab agree
 * and exhibit where they do not.
 */
module Protocol {
  import opened Values
  import opened Themes
  import opened Store
  import Content
  import Dashboard
  import Background
  import Popup

  /** The page after the sends of `trace` that reach tab `tabId`, in order; writes and other tabs' sends pass it by. */
  function Deliver(p: Content.Page, trace: seq<Event>, tabId: int): Content.Page
    decreases |trace|
  {
    if trace == [] then p
    else
      var e := trace[0];
      var next := if e.Send? && e.tab == tabId && e.delivered then Content.OnMessage(p, e.msg) else p;
      Deliver(next, trace[1..], tabId)
  }

  /** A reload of `tab` over the document `d`: `init` from the store, then the load-complete sync. */
  function Reload(s: Items, d: Content.Doc, tab: Tab): Content.Page {
    Deliver(Content.Init(s, d), Background.OnTabUpdated(s, tab, "complete"), tab.id)
  }

  /** A trace of writes followed by one send reaches the tab exactly when that send is addressed to it and delivered. */
  lemma {:induction false} DeliverWritesThenSend(p: Content.Page, trace: seq<Event>, tabId: int)
    requires trace != [] && trace[|trace| - 1].Send?
    requires forall i :: 0 <= i < |trace| - 1 ==> trace[i].Write?
    ensures var e := trace[|trace| - 1];
      Deliver(p, trace, tabId) == if e.tab == tabId && e.delivered then Content.OnMessage(p, e.msg) else p
    decreases |trace|
  {
    if |trace| > 1 {
      assert trace[0].Write?;
      assert Deliver(p, trace, tabId) == Deliver(p, trace[1..], tabId);
      assert trace[1..][|trace[1..]| - 1] == trace[|trace| - 1];
      DeliverWritesThenSend(p, trace[1..], tabId);
    } else {
      assert trace[1..] == [];
    }
  }

  /** A reload is `init`, followed by the sync message when there is one and the tab receives it. */
  lemma ReloadSteps(s: Items, d: Content.Doc, tab: Tab)
    ensures var m := Background.SyncMessage(s);
      Reload(s, d, tab) == if tab.reachable && m.Some? then Content.OnMessage(Content.Init(s, d), m.value)
                           else Content.Init(s, d)
  {
    var sends := Background.OnTabUpdated(s, tab, "complete");
    var init := Content.Init(s, d);
    var m := Background.SyncMessage(s);
    if m.Some? {
      assert sends == [Send(tab.id, m.value, tab.reachable)];
      assert sends[1..] == [];
      var next := if tab.reachable then Content.OnMessage(init, m.value) else init;
      assert Deliver(init, sends, tab.id) == Deliver(next, [], tab.id);
    } else {
      assert sends == [];
    }
  }

  /**
   * The message the background sends a loaded tab puts that tab in line
   * with the store: themed with `activeTheme` when enabled, bare when not.
   */
  lemma SyncBringsTabInLine(s: Items, p: Content.Page)
    ensures var m := Background.SyncMessage(s);
      && (m.Some? && Background.Enabled(s) ==>
            Content.Themed(Content.OnMessage(p, m.value).doc, ActiveThemeOf(s).value)
            && Content.OnMessage(p, m.value).manager == Content.Manager(true, ActiveThemeOf(s)))
      && (!Background.Enabled(s) ==> m.Some? && Content.Cleared(Content.OnMessage(p, m.value).doc))
      && (m.None? ==> Background.Enabled(s) && !Truthy(ActiveThemeOf(s)))
  {
  }

  /**
   * After the background handles a toggle request, a tab that loads later is
   * given the page the broadcast gave the tabs open at the time. A request
   * that enables theming with no theme id is the exception: the open tabs are
   * cleared but a later tab is sent nothing.
   */
  lemma {:induction false} LateTabMatchesBroadcast(s: Items, enabled: bool, theme: Option<string>, p: Content.Page)
    ensures var s' := Set(s, Background.ToggleWrite(enabled, theme));
      var broadcast := Content.OnMessage(p, ToggleTheme(enabled, theme));
      var sync := Background.SyncMessage(s');
      && (enabled ==> Truthy(theme) ==> sync.Some? && Content.OnMessage(p, sync.value) == broadcast)
      && (!enabled ==> sync.Some? && Content.OnMessage(p, sync.value).doc == broadcast.doc)
      && (enabled && !Truthy(theme) ==> sync.None? && Content.Cleared(broadcast.doc))
  {
    var s' := Set(s, Background.ToggleWrite(enabled, theme));
    assert s'.enabled == Some(enabled);
    assert ActiveThemeOf(s') == if enabled then theme else None;
  }

  /**
   * A theme applied from the dashboard reaches the active tab when that tab
   * has a listener, and then sets its manager and themes the page; an
   * untouched page shows the theme on every element that is not skipped.
   * Elements processed earlier keep their earlier theme.
   */
  lemma {:induction false} DashboardApplyReachesTab(s: Items, theme: Theme, tab: Tab, p: Content.Page)
    requires theme.id != ""
    ensures var live := Deliver(p, Dashboard.ApplyTheme(s, theme, tab), tab.id);
      && (!tab.reachable ==> live == p)
      && (tab.reachable ==>
            && live.manager == Content.Manager(true, Some(theme.id))
            && Content.Themed(live.doc, theme.id)
            && (Content.Fresh(p.doc) ==> Content.ShowsTheme(live.doc, theme.id)))
  {
    var trace := Dashboard.ApplyTheme(s, theme, tab);
    DeliverWritesThenSend(p, trace, tab.id);
    if tab.reachable && Content.Fresh(p.doc) {
      Content.ApplyFreshShows(p.doc, theme.id);
    }
  }

  /**
   * A tab reloaded after a dashboard apply starts from the applied theme,
   * but the load-complete sync then re-themes it with the background's
   * `activeTheme`, which the dashboard never writes. The reload agrees with
   * the live tab exactly when `activeTheme` is unset, null, empty or the
   * applied id, or the sync does not reach the tab; otherwise the manager,
   * the root and the body take `activeTheme` while an untouched page's
   * other elements keep the applied theme.
   */
  lemma {:induction false} DashboardApplyReload(s: Items, theme: Theme, tab: Tab, d: Content.Doc, other: Tab)
    requires theme.id != ""
    ensures var reloaded := Reload(Replay(s, Dashboard.ApplyTheme(s, theme, tab)), d, other);
      var active := ActiveThemeOf(s);
      && ((!Truthy(active) || active == Some(theme.id) || !other.reachable) ==>
            && reloaded.manager == Content.Manager(true, Some(theme.id))
            && Content.Themed(reloaded.doc, theme.id)
            && (Content.Fresh(d) ==> Content.ShowsTheme(reloaded.doc, theme.id)))
      && (Truthy(active) && other.reachable ==>
            && reloaded.manager == Content.Manager(true, active)
            && reloaded.doc.html.dataTheme == active && reloaded.doc.body.dataTheme == active)
      && |reloaded.doc.others| == |d.others|
      && (Content.Fresh(d) ==>
            forall i :: 0 <= i < |d.others| && !Content.ShouldSkip(d.others[i]) ==>
              reloaded.doc.others[i].dataTheme == Some(theme.id))
  {
    var s' := Replay(s, Dashboard.ApplyTheme(s, theme, tab));
    Dashboard.ApplyThemeEffect(s, theme, tab);
    assert ActiveThemeOf(s') == ActiveThemeOf(s);
    ReloadSteps(s', d, other);
    var init := Content.Init(s', d);
    if Content.Fresh(d) {
      Content.ApplyFreshShows(d, theme.id);
    }
    if Truthy(ActiveThemeOf(s)) && other.reachable {
      Content.ReapplyKeepsProcessed(d, theme.id, ActiveThemeOf(s).value);
      if ActiveThemeOf(s) == Some(theme.id) {
        Content.ReapplySame(init.doc, theme.id);
      }
    }
  }

  /**
   * A reload after the background's toggle reads `currentTheme`, which the
   * toggle leaves alone, and then receives the toggled `activeTheme` from
   * the load-complete sync. When both are set, the manager, the root
   * and the body take the toggled theme while an untouched page's other elements keep
   * the stored `currentTheme`: the page ends up mixed.
   */
  lemma {:induction false} BackgroundToggleReload(s: Items, theme: Option<string>, d: Content.Doc, tab: Tab)
    ensures var reloaded := Reload(Set(s, Background.ToggleWrite(true, theme)), d, tab);
      && (!tab.reachable || !Truthy(theme) ==> reloaded == Content.Init(s.(enabled := Some(true)), d))
      && (tab.reachable && Truthy(theme) ==>
            && reloaded.manager == Content.Manager(true, theme)
            && reloaded.doc.html.dataTheme == theme && reloaded.doc.body.dataTheme == theme)
      && |reloaded.doc.others| == |d.others|
      && (Content.Fresh(d) && Truthy(s.currentTheme) ==>
            forall i :: 0 <= i < |d.others| && !Content.ShouldSkip(d.others[i]) ==>
              reloaded.doc.others[i].dataTheme == s.currentTheme)
      && (Content.Fresh(d) && !Truthy(s.currentTheme) && tab.reachable && Truthy(theme) ==>
            Content.ShowsTheme(reloaded.doc, theme.value))
  {
    var s' := Set(s, Background.ToggleWrite(true, theme));
    assert s' == s.(enabled := Some(true), activeTheme := Some(theme));
    assert ActiveThemeOf(s') == theme;
    ReloadSteps(s', d, tab);
    if Content.Fresh(d) {
      if Truthy(s.currentTheme) {
        Content.ApplyFreshShows(d, s.currentTheme.value);
        if tab.reachable && Truthy(theme) {
          Content.ReapplyKeepsProcessed(d, s.currentTheme.value, theme.value);
        }
      } else if tab.reachable && Truthy(theme) {
        Content.ApplyFreshShows(d, theme.value);
      }
    }
  }

  /**
   * With a current theme stored, the popup's toggle sets the live tab's
   * manager to that theme and themes or clears the page. A reload agrees
   * while `activeTheme` is unset, null, empty or the same id, or the sync
   * does not reach the tab; otherwise the sync re-themes it with
   * `activeTheme`. Switched off, both end bare, and the reloaded manager
   * keeps no theme id when the sync reaches it.
   */
  lemma {:induction false} PopupToggleMatchesReload(s: Items, checked: bool, tab: Tab, p: Content.Page, d: Content.Doc, other: Tab)
    requires Truthy(s.currentTheme)
    ensures var trace := Popup.OnToggleChange(s, checked, tab);
      var live := Deliver(p, trace, tab.id);
      var reloaded := Reload(Replay(s, trace), d, other);
      var cur := s.currentTheme;
      var active := ActiveThemeOf(s);
      && (!tab.reachable ==> live == p)
      && (tab.reachable ==> live.manager == Content.Manager(checked, cur))
      && (tab.reachable && checked ==>
            Content.Themed(live.doc, cur.value) && (Content.Fresh(p.doc) ==> Content.ShowsTheme(live.doc, cur.value)))
      && (tab.reachable && !checked ==> Content.Cleared(live.doc))
      && (checked && (!Truthy(active) || active == cur || !other.reachable) ==>
            && reloaded.manager == Content.Manager(true, cur)
            && Content.Themed(reloaded.doc, cur.value)
            && (Content.Fresh(d) ==> Content.ShowsTheme(reloaded.doc, cur.value)))
      && (checked && Truthy(active) && other.reachable ==> reloaded.manager == Content.Manager(true, active))
      && (!checked && other.reachable ==>
            reloaded.manager == Content.Manager(false, None) && Content.Cleared(reloaded.doc))
      && (!checked && !other.reachable ==>
            reloaded.manager == Content.Manager(false, cur) && reloaded.doc == d)
  {
    var trace := Popup.OnToggleChange(s, checked, tab);
    var s' := Replay(s, trace);
    Popup.ToggleEffect(s, checked, tab);
    DeliverWritesThenSend(p, trace, tab.id);
    ReloadSteps(s', d, other);
    assert ActiveThemeOf(s') == ActiveThemeOf(s);
    var init := Content.Init(s', d);
    if checked {
      if tab.reachable && Content.Fresh(p.doc) {
        Content.ApplyFreshShows(p.doc, s.currentTheme.value);
      }
      if Content.Fresh(d) {
        Content.ApplyFreshShows(d, s.currentTheme.value);
      }
      if other.reachable && ActiveThemeOf(s) == s.currentTheme {
        Content.ReapplySame(init.doc, s.currentTheme.value);
      }
    }
  }

  /**
   * A reload after the background's disabling toggle starts disabled with
   * the stored `currentTheme` and leaves the page as loaded; the sync then
   * clears the manager's theme and the page.
   */
  lemma {:induction false} BackgroundDisableReload(s: Items, theme: Option<string>, d: Content.Doc, tab: Tab)
    ensures var reloaded := Reload(Set(s, Background.ToggleWrite(false, theme)), d, tab);
      && (!tab.reachable ==> reloaded == Content.Page(Content.Manager(false, s.currentTheme), d))
      && (tab.reachable ==> reloaded.manager == Content.Manager(false, None) && Content.Cleared(reloaded.doc))
  {
    var s' := Set(s, Background.ToggleWrite(false, theme));
    assert s' == s.(enabled := Some(false), activeTheme := Some(None));
    ReloadSteps(s', d, tab);
  }

  /**
   * With neither theme key set, switching the popup's toggle on themes the
   * active tab with the default preset, but a reload of that tab reads no
   * current theme and, with no `activeTheme` either, is sent nothing: the
   * reloaded page is the document as loaded, under a manager with no theme.
   */
  lemma {:induction false} PopupToggleReloadMismatch(s: Items, p: Content.Page, d: Content.Doc, tab: Tab)
    requires !Truthy(s.currentTheme) && !Truthy(ActiveThemeOf(s)) && tab.reachable
    ensures var trace := Popup.OnToggleChange(s, true, tab);
      var live := Deliver(p, trace, tab.id);
      var reloaded := Reload(Replay(s, trace), d, tab);
      && live.manager == Content.Manager(true, Some(DefaultThemeId))
      && live.doc.html.dataTheme == Some(DefaultThemeId)
      && reloaded.manager == Content.Manager(true, s.currentTheme)
      && reloaded.doc == d
  {
    var trace := Popup.OnToggleChange(s, true, tab);
    var s' := Replay(s, trace);
    Popup.ToggleEffect(s, true, tab);
    DeliverWritesThenSend(p, trace, tab.id);
    ReloadSteps(s', d, tab);
    assert ActiveThemeOf(s') == ActiveThemeOf(s);
  }
}

=== FILE: Seqs.dfy ===
/**
 * The array operations the extension's scripts use (`filter`, `map`,
 * `indexOf`), stated over Dafny sequences, and the notion of one sequence
 * keeping the relative order of another.
 */
module Seqs {

  /** `xs.filter(p)`: the elements of `xs` that satisfy `p`, in their original order. */
  function Filter<T>(p: T -> bool, xs: seq<T>): (r: seq<T>)
    ensures |r| <= |xs|
    ensures forall i :: 0 <= i < |r| ==> r[i] in xs && p(r[i])
    ensures forall i :: 0 <= i < |xs| && p(xs[i]) ==> xs[i] in r
  {
    if xs == [] then []
    else
      assert xs == [xs[0]] + xs[1..];
      if p(xs[0]) then [xs[0]] + Filter(p, xs[1..]) else Filter(p, xs[1..])
  }

  /**
   * `xs.filter(p)` keeps every occurrence of an element that satisfies `p`
   * and none of the others: as multisets, exactly the `p`-part of `xs`.
   */
  lemma {:induction false} FilterCount<T>(p: T -> bool, xs: seq<T>)
    ensures multiset(Filter(p, xs)) <= multiset(xs)
    ensures forall i :: 0 <= i < |xs| ==>
      multiset(Filter(p, xs))[xs[i]] == if p(xs[i]) then multiset(xs)[xs[i]] else 0
    decreases |xs|
  {
    if xs != [] {
      var x, t := xs[0], xs[1..];
      assert xs == [x] + t;
      FilterCount(p, t);
      forall i | 0 <= i < |xs|
        ensures multiset(Filter(p, xs))[xs[i]] == if p(xs[i]) then multiset(xs)[xs[i]] else 0
      {
        var y := xs[i];
        if y !in t {
          assert multiset(Filter(p, t))[y] == 0;
        }
      }
    }
  }

  lemma FilterCons<T>(p: T -> bool, x: T, xs: seq<T>)
    ensures Filter(p, [x] + xs) == (if p(x) then [x] else []) + Filter(p, xs)
  {
    assert ([x] + xs)[0] == x;
    assert ([x] + xs)[1..] == xs;
  }

  /**
   * Without duplicates, a prefix of `xs.filter(p)` is closed downwards: when
   * it holds one element, it holds every earlier element that satisfies `p`.
   */
  lemma {:induction false} FilterPrefixClosed<T>(p: T -> bool, xs: seq<T>, k: nat, i: nat, j: nat)
    requires NoDuplicates(xs)
    requires i < j < |xs| && p(xs[i]) && p(xs[j])
    requires k <= |Filter(p, xs)| && xs[j] in Filter(p, xs)[..k]
    ensures xs[i] in Filter(p, xs)[..k]
    decreases |xs|
  {
    var x, t := xs[0], xs[1..];
    assert xs == [x] + t;
    FilterCons(p, x, t);
    var f := Filter(p, xs);
    var ft := Filter(p, t);
    if i == 0 {
      assert f[0] == x;
    } else {
      NoDuplicatesTail(xs);
      assert t[i - 1] == xs[i] && t[j - 1] == xs[j];
      if p(x) {
        assert xs[j] != x;
        ConsPrefixMember(x, ft, k, xs[j]);
        FilterPrefixClosed(p, t, k - 1, i - 1, j - 1);
        ConsPrefixMember(x, ft, k, xs[i]);
      } else {
        assert f == ft;
        FilterPrefixClosed(p, t, k, i - 1, j - 1);
      }
    }
  }

  lemma ConsPrefix<T>(x: T, a: seq<T>, k: nat)
    requires 1 <= k <= |a| + 1
    ensures ([x] + a)[..k] == [x] + a[..k - 1]
  {
  }

  lemma ConsPrefixMember<T>(x: T, a: seq<T>, k: nat, y: T)
    requires k <= |a| + 1
    ensures y in ([x] + a)[..k] <==> k >= 1 && (y == x || y in a[..k - 1])
  {
    if k >= 1 {
      ConsPrefix(x, a, k);
    }
  }

  lemma NoDuplicatesTail<T>(xs: seq<T>)
    requires xs != [] && NoDuplicates(xs)
    ensures NoDuplicates(xs[1..])
  {
  }

  /** `xs.map(f)`. */
  function Map<T, U>(f: T -> U, xs: seq<T>): (r: seq<U>)
    ensures |r| == |xs|
    ensures forall i :: 0 <= i < |xs| ==> r[i] == f(xs[i])
  {
    seq(|xs|, i requires 0 <= i < |xs| => f(xs[i]))
  }

  /** `xs.indexOf(x)`: the first position holding `x`, or -1. */
  function IndexOf<T(==)>(xs: seq<T>, x: T): (r: int)
    ensures -1 <= r < |xs|
    ensures r == -1 <==> x !in xs
    ensures r >= 0 ==> xs[r] == x && forall j :: 0 <= j < r ==> xs[j] != x
  {
    if xs == [] then -1
    else if xs[0] == x then 0
    else
      var k := IndexOf(xs[1..], x);
      if k == -1 then -1 else k + 1
  }

  /** `a` is obtained from `b` by deleting elements: it keeps their relative order. */
  predicate IsSubsequence<T(==)>(a: seq<T>, b: seq<T>)
    decreases |b|
  {
    if b == [] then a == []
    else (a != [] && a[0] == b[0] && IsSubsequence(a[1..], b[1..])) || IsSubsequence(a, b[1..])
  }

  /** No element occurs twice. */
  predicate NoDuplicates<T(==)>(xs: seq<T>) {
    forall i, j :: 0 <= i < j < |xs| ==> xs[i] != xs[j]
  }

  lemma {:induction false} FilterIsSubsequence<T>(p: T -> bool, xs: seq<T>)
    ensures IsSubsequence(Filter(p, xs), xs)
    decreases |xs|
  {
    if xs != [] {
      FilterIsSubsequence(p, xs[1..]);
      var r := Filter(p, xs);
      if p(xs[0]) {
        assert r[0] == xs[0] && r[1..] == Filter(p, xs[1..]);
      }
    }
  }

  lemma {:induction false} PrefixIsSubsequence<T>(a: seq<T>, b: seq<T>)
    requires a <= b
    ensures IsSubsequence(a, b)
    decreases |b|
  {
    if b != [] {
      if a == [] {
        PrefixIsSubsequence(a, b[1..]);
      } else {
        PrefixIsSubsequence(a[1..], b[1..]);
      }
    }
  }

  lemma {:induction false} SubsequenceTransitive<T>(a: seq<T>, b: seq<T>, c: seq<T>)
    requires IsSubsequence(a, b) && IsSubsequence(b, c)
    ensures IsSubsequence(a, c)
    decreases |c|
  {
    if c != [] {
      if b != [] && b[0] == c[0] && IsSubsequence(b[1..], c[1..]) {
        if a != [] && a[0] == b[0] && IsSubsequence(a[1..], b[1..]) {
          SubsequenceTransitive(a[1..], b[1..], c[1..]);
        } else {
          SubsequenceTransitive(a, b[1..], c[1..]);
        }
      } else {
        SubsequenceTransitive(a, b, c[1..]);
      }
    }
  }

  lemma {:induction false} SubsequenceMembers<T>(a: seq<T>, b: seq<T>)
    requires IsSubsequence(a, b)
    ensures forall i :: 0 <= i < |a| ==> a[i] in b
    decreases |b|
  {
    if b != [] {
      if a != [] && a[0] == b[0] && IsSubsequence(a[1..], b[1..]) {
        SubsequenceMembers(a[1..], b[1..]);
        assert a == [a[0]] + a[1..];
      } else {
        SubsequenceMembers(a, b[1..]);
      }
    }
  }

  lemma ConsNoDuplicates<T>(x: T, a: seq<T>)
    requires x !in a && NoDuplicates(a)
    ensures NoDuplicates([x] + a)
  {
    var l := [x] + a;
    forall i, j | 0 <= i < j < |l|
      ensures l[i] != l[j]
    {
      assert l[j] == a[j - 1];
      if i > 0 {
        assert l[i] == a[i - 1];
      }
    }
  }

  lemma {:induction false} SubsequenceNoDuplicates<T>(a: seq<T>, b: seq<T>)
    requires IsSubsequence(a, b) && NoDuplicates(b)
    ensures NoDuplicates(a)
    decreases |b|
  {
    if b != [] {
      assert NoDuplicates(b[1..]);
      if a != [] && a[0] == b[0] && IsSubsequence(a[1..], b[1..]) {
        SubsequenceNoDuplicates(a[1..], b[1..]);
        SubsequenceMembers(a[1..], b[1..]);
        assert b[0] !in b[1..];
        ConsNoDuplicates(a[0], a[1..]);
        assert a == [a[0]] + a[1..];
      } else {
        SubsequenceNoDuplicates(a, b[1..]);
      }
    }
  }
}

=== FILE: Store.dfy ===
/**
 * The synced key-value store, the messages the surfaces exchange, and the
 * trace of store writes and tab sends that every handler produces.
 *
 * Store keys are kept exactly as the scripts spell them: the dashboard, the
 * popup and the content script's ThemeManager use `currentTheme`, the
 * background uses `activeTheme`. They are different keys.
 */
module Store {
  import opened Values
  import opened Themes

  /**
   * The store contents, or one `chrome.storage.sync.set` argument: each key is
   * present with a value or absent. `activeTheme` may hold `null`, written
   * `Some(None)`.
   */
  datatype Items = Items(
    enabled: Option<bool>,
    currentTheme: Option<string>,
    activeTheme: Option<Option<string>>,
    themes: Option<seq<Theme>>,
    recentlyUsed: Option<seq<string>>)

  const NoItems: Items := Items(None, None, None, None, None)

  function Pick<T>(written: Option<T>, stored: Option<T>): Option<T> {
    if written.Some? then written else stored
  }

  /** `chrome.storage.sync.set(w)`: the keys present in `w` are replaced, the others kept. */
  function Set(s: Items, w: Items): (r: Items)
    ensures r.enabled == (if w.enabled.Some? then w.enabled else s.enabled)
    ensures r.currentTheme == (if w.currentTheme.Some? then w.currentTheme else s.currentTheme)
    ensures r.activeTheme == (if w.activeTheme.Some? then w.activeTheme else s.activeTheme)
    ensures r.themes == (if w.themes.Some? then w.themes else s.themes)
    ensures r.recentlyUsed == (if w.recentlyUsed.Some? then w.recentlyUsed else s.recentlyUsed)
  {
    Items(Pick(w.enabled, s.enabled), Pick(w.currentTheme, s.currentTheme),
          Pick(w.activeTheme, s.activeTheme), Pick(w.themes, s.themes),
          Pick(w.recentlyUsed, s.recentlyUsed))
  }

  /** Two writes in a row act as one write of their merge, the later one winning per key. */
  lemma SetMerge(s: Items, a: Items, b: Items)
    ensures Set(Set(s, a), b) == Set(s, Set(a, b))
  {
  }

  /** Writing the same items twice is writing them once. */
  lemma SetIdempotent(s: Items, w: Items)
    ensures Set(Set(s, w), w) == Set(s, w)
  {
  }

  /** `result.themes || []` */
  function ThemesOf(s: Items): seq<Theme> {
    if s.themes.Some? then s.themes.value else []
  }

  /** `result.recentlyUsed || []` */
  function RecentOf(s: Items): seq<string> {
    if s.recentlyUsed.Some? then s.recentlyUsed.value else []
  }

  /** `activeTheme` with an absent key and `null` both read as no id. */
  function ActiveThemeOf(s: Items): Option<string> {
    if s.activeTheme.Some? then s.activeTheme.value else None
  }

  /** Every theme a surface can name: the presets first, then the saved custom themes. */
  function Catalogue(s: Items): seq<Theme> {
    PresetThemes + ThemesOf(s)
  }

  /** `currentTheme`, when set, names a preset or a saved custom theme. */
  predicate CurrentResolves(s: Items) {
    s.currentTheme.None? || FindById(Catalogue(s), s.currentTheme.value).Some?
  }

  /** The envelope `{action, enabled, theme}`; `theme: null` is `None`. */
  datatype Message =
    | ToggleTheme(enabled: bool, theme: Option<string>)
    | Other(action: string)

  /** An open tab, with the outcome a send to it would have (no listener: not delivered). */
  datatype Tab = Tab(id: int, reachable: bool)

  datatype Event =
    | Write(items: Items)
    | Send(tab: int, msg: Message, delivered: bool)

  function Step(s: Items, e: Event): Items {
    if e.Write? then Set(s, e.items) else s
  }

  /** The store after the writes of `trace`, in order; sends leave it alone. */
  function Replay(s: Items, trace: seq<Event>): Items
    decreases |trace|
  {
    if trace == [] then s else Replay(Step(s, trace[0]), trace[1..])
  }

  lemma {:induction false} ReplayAppend(s: Items, a: seq<Event>, b: seq<Event>)
    ensures Replay(s, a + b) == Replay(Replay(s, a), b)
    decreases |a|
  {
    if a == [] {
      assert a + b == b;
    } else {
      assert (a + b)[0] == a[0];
      assert (a + b)[1..] == a[1..] + b;
      ReplayAppend(Step(s, a[0]), a[1..], b);
    }
  }

  lemma {:induction false} ReplaySendsOnly(s: Items, trace: seq<Event>)
    requires forall i :: 0 <= i < |trace| ==> trace[i].Send?
    ensures Replay(s, trace) == s
    decreases |trace|
  {
    if trace != [] {
      ReplaySendsOnly(s, trace[1..]);
    }
  }
}

=== FILE: ThemeOrder.dfy ===
/**
 * The order in which the dashboard lists custom themes: the comparator that
 * `loadThemes` passes to `themes.sort`, and a stable sort driven by it.
 *
 * The comparator ranks a theme by the position of its id in `recentlyUsed`
 * and puts every unlisted theme after every listed one. The engine's sort is
 * stable (section 22.1.3.27 of ECMAScript 2019), so the order is fixed by
 * three facts proved here: the result is a permutation of the input, it is
 * sorted by rank, and themes of equal rank keep their original order.
 */
module ThemeOrder {
  import opened Seqs
  import opened Themes

  /** Position of the id in `recent`, or `|recent|` for an unlisted id. */
  function Rank(t: Theme, recent: seq<string>): (r: nat)
    ensures r <= |recent|
    ensures r == |recent| <==> t.id !in recent
    ensures r < |recent| ==> r == IndexOf(recent, t.id)
  {
    var i := IndexOf(recent, t.id);
    if i == -1 then |recent| else i
  }

  /** The comparator of `loadThemes`; its sign is the comparison of ranks. */
  function Compare(a: Theme, b: Theme, recent: seq<string>): (r: int)
    ensures r < 0 <==> Rank(a, recent) < Rank(b, recent)
    ensures r == 0 <==> Rank(a, recent) == Rank(b, recent)
    ensures r > 0 <==> Rank(a, recent) > Rank(b, recent)
  {
    var ai := IndexOf(recent, a.id);
    var bi := IndexOf(recent, b.id);
    if ai == -1 && bi == -1 then 0
    else if ai == -1 then 1
    else if bi == -1 then -1
    else ai - bi
  }

  ghost predicate SortedByRank(ts: seq<Theme>, recent: seq<string>) {
    forall i, j :: 0 <= i < j < |ts| ==> Rank(ts[i], recent) <= Rank(ts[j], recent)
  }

  /** Puts `x` before the first theme the comparator does not rank below it. */
  function Insert(x: Theme, ts: seq<Theme>, recent: seq<string>): (r: seq<Theme>)
    ensures |r| == |ts| + 1
    ensures forall i :: 0 <= i < |r| ==> r[i] == x || r[i] in ts
  {
    if ts == [] then [x]
    else if Compare(x, ts[0], recent) <= 0 then [x] + ts
    else
      assert ts == [ts[0]] + ts[1..];
      [ts[0]] + Insert(x, ts[1..], recent)
  }

  lemma {:induction false} InsertPermutes(x: Theme, ts: seq<Theme>, recent: seq<string>)
    ensures multiset(Insert(x, ts, recent)) == multiset(ts) + multiset{x}
    decreases |ts|
  {
    if ts != [] && Compare(x, ts[0], recent) > 0 {
      InsertPermutes(x, ts[1..], recent);
      assert ts == [ts[0]] + ts[1..];
    }
  }

  lemma {:induction false} InsertSorted(x: Theme, ts: seq<Theme>, recent: seq<string>)
    requires SortedByRank(ts, recent)
    ensures SortedByRank(Insert(x, ts, recent), recent)
    decreases |ts|
  {
    var r := Insert(x, ts, recent);
    if ts != [] && Compare(x, ts[0], recent) > 0 {
      var rest := Insert(x, ts[1..], recent);
      InsertSorted(x, ts[1..], recent);
      assert r == [ts[0]] + rest;
      forall j | 0 <= j < |rest|
        ensures Rank(ts[0], recent) <= Rank(rest[j], recent)
      {
        if rest[j] != x {
          assert rest[j] in ts[1..];
        }
      }
    }
  }

  /** `themes.sort(comparator)` with a stable sort. */
  function SortByRecent(ts: seq<Theme>, recent: seq<string>): (r: seq<Theme>)
    ensures multiset(r) == multiset(ts)
    ensures SortedByRank(r, recent)
    ensures forall i, j :: 0 <= i < j < |r| ==> Compare(r[i], r[j], recent) <= 0
  {
    if ts == [] then []
    else
      assert ts == [ts[0]] + ts[1..];
      InsertSorted(ts[0], SortByRecent(ts[1..], recent), recent);
      InsertPermutes(ts[0], SortByRecent(ts[1..], recent), recent);
      Insert(ts[0], SortByRecent(ts[1..], recent), recent)
  }

  /** The themes of rank `k`, in the order of `ts`. */
  function OfRank(ts: seq<Theme>, recent: seq<string>, k: nat): seq<Theme> {
    if ts == [] then []
    else (if Rank(ts[0], recent) == k then [ts[0]] else []) + OfRank(ts[1..], recent, k)
  }

  lemma OfRankCons(y: Theme, ts: seq<Theme>, recent: seq<string>, k: nat)
    ensures OfRank([y] + ts, recent, k) == (if Rank(y, recent) == k then [y] else []) + OfRank(ts, recent, k)
  {
    assert ([y] + ts)[0] == y;
    assert ([y] + ts)[1..] == ts;
  }

  lemma {:induction false} InsertStable(x: Theme, ts: seq<Theme>, recent: seq<string>, k: nat)
    ensures OfRank(Insert(x, ts, recent), recent, k)
         == (if Rank(x, recent) == k then [x] else []) + OfRank(ts, recent, k)
    decreases |ts|
  {
    if ts == [] {
      OfRankCons(x, [], recent, k);
    } else if Compare(x, ts[0], recent) <= 0 {
      OfRankCons(x, ts, recent, k);
    } else {
      var rest := Insert(x, ts[1..], recent);
      assert Insert(x, ts, recent) == [ts[0]] + rest;
      InsertStable(x, ts[1..], recent, k);
      OfRankCons(ts[0], rest, recent, k);
    }
  }

  /** Themes of equal rank appear in the sorted list in their original order. */
  lemma {:induction false} SortStable(ts: seq<Theme>, recent: seq<string>, k: nat)
    ensures OfRank(SortByRecent(ts, recent), recent, k) == OfRank(ts, recent, k)
    decreases |ts|
  {
    if ts != [] {
      SortStable(ts[1..], recent, k);
      InsertStable(ts[0], SortByRecent(ts[1..], recent), recent, k);
    }
  }

  /**
   * Recently used themes come first, in the order of `recent`; the themes
   * that are not listed follow, in the order they had before sorting.
   */
  lemma RecentFirst(ts: seq<Theme>, recent: seq<string>)
    ensures var r := SortByRecent(ts, recent);
      && (forall i, j :: 0 <= i < j < |r| && r[j].id in recent ==>
            r[i].id in recent && IndexOf(recent, r[i].id) <= IndexOf(recent, r[j].id))
      && OfRank(r, recent, |recent|) == OfRank(ts, recent, |recent|)
  {
    var r := SortByRecent(ts, recent);
    forall i, j | 0 <= i < j < |r| && r[j].id in recent
      ensures r[i].id in recent && IndexOf(recent, r[i].id) <= IndexOf(recent, r[j].id)
    {
      assert Rank(r[i], recent) <= Rank(r[j], recent) < |recent|;
    }
    SortStable(ts, recent, |recent|);
  }
}

=== FILE: Themes.dfy ===
/**
 * Theme records and the three built-in presets the popup and the dashboard
 * both know by id. Colours are opaque strings: no script parses them.
 */
module Themes {
  import opened Values

  datatype Colors = Colors(primary: string, secondary: string, accent: string, text: string, background: string)

  /** The `type` field of a theme record. */
  datatype Kind = Preset | Custom

  /** A preset carries no `fontFamily`; a theme saved from the editor always does. */
  datatype Theme = Theme(id: string, name: string, kind: Kind, colors: Colors, fontFamily: Option<string>)

  /** What the dashboard's editor form yields (`getThemeDataFromForm`). */
  datatype ThemeData = ThemeData(name: string, colors: Colors, fontFamily: string)

  /** The fallback theme of the popup, of a deleted current theme, and of the popup toggle. */
  const DefaultThemeId: string := "pastel-paradise"
  const DefaultThemeName: string := "Pastel Paradise"
  const StarryNightId: string := "starry-night"

  const PresetThemes: seq<Theme> := [
    Theme(DefaultThemeId, DefaultThemeName, Preset,
          Colors("#ffa6d2", "#a6c1ff", "#ffd6e6", "#6e5a6e", "#fff0f5"), None),
    Theme(StarryNightId, "Starry Night", Preset,
          Colors("#b19cd9", "#9db4ff", "#e6e6ff", "#e6e6ff", "#2a2a4a"), None),
    Theme("fluffy-clouds", "Fluffy Clouds", Preset,
          Colors("#87ceeb", "#b0e0e6", "#e6f3ff", "#4a6b8c", "#f0f8ff"), None)
  ]

  /** `themes.find(t => t.id === id)`: the first theme with that id. */
  function FindById(themes: seq<Theme>, id: string): (r: Option<Theme>)
    ensures r.None? <==> forall i :: 0 <= i < |themes| ==> themes[i].id != id
    ensures r.Some? ==> exists i :: 0 <= i < |themes| && themes[i] == r.value && themes[i].id == id
                                  && forall j :: 0 <= j < i ==> themes[j].id != id
  {
    if themes == [] then None
    else if themes[0].id == id then Some(themes[0])
    else
      var r := FindById(themes[1..], id);
      if r.Some? then
        ghost var i :| 0 <= i < |themes[1..]| && themes[1..][i] == r.value && themes[1..][i].id == id
                       && forall j :: 0 <= j < i ==> themes[1..][j].id != id;
        assert themes[i + 1] == r.value;
        r
      else r
  }

  predicate IsPresetId(id: string) {
    FindById(PresetThemes, id).Some?
  }

  /** Searching a concatenation finds a match in the first part before any in the second. */
  lemma {:induction false} FindByIdAppend(a: seq<Theme>, b: seq<Theme>, id: string)
    ensures FindById(a + b, id) == if FindById(a, id).Some? then FindById(a, id) else FindById(b, id)
    decreases |a|
  {
    if a == [] {
      assert a + b == b;
    } else {
      assert (a + b)[0] == a[0];
      assert (a + b)[1..] == a[1..] + b;
      FindByIdAppend(a[1..], b, id);
    }
  }
}

=== FILE: Values.dfy ===
/**
 * Values shared by every part of the extension model: optional store entries,
 * JavaScript truthiness of theme identifiers, and the decimal text of the
 * millisecond timestamp that custom theme ids are built from.
 */
module Values {

  /** A value that may be missing: an absent store key, `undefined` or `null`. */
  datatype Option<+T> = None | Some(value: T)

  /** JavaScript truthiness of an optional string: `undefined`, `null` and `''` are falsy. */
  predicate Truthy(s: Option<string>) {
    s.Some? && s.value != ""
  }

  /** `s || fallback` for an optional string. */
  function OrElse(s: Option<string>, fallback: string): string {
    if Truthy(s) then s.value else fallback
  }

  /** `b ?? false` for an optional boolean. */
  function OrFalse(b: Option<bool>): bool {
    b.Some? && b.value
  }

  function Min(a: int, b: int): int {
    if a <= b then a else b
  }

  function DigitChar(d: nat): (c: char)
    requires d < 10
    ensures '0' <= c <= '9'
  {
    (48 + d) as char
  }

  /** The decimal text JavaScript produces for a non-negative integer (`String(n)`). */
  function Decimal(n: nat): (r: string)
    ensures |r| >= 1
    ensures (|r| == 1) == (n < 10)
    ensures forall i :: 0 <= i < |r| ==> '0' <= r[i] <= '9'
    decreases n
  {
    if n < 10 then [DigitChar(n)] else Decimal(n / 10) + [DigitChar(n % 10)]
  }

  /** Distinct numbers have distinct decimal texts. */
  lemma {:induction false} DecimalInjective(a: nat, b: nat)
    requires Decimal(a) == Decimal(b)
    ensures a == b
    decreases a
  {
    var s := Decimal(a);
    if |s| == 1 {
      assert s[0] == DigitChar(a) == DigitChar(b);
    } else {
      var n := |s|;
      assert s[n - 1] == DigitChar(a % 10) == DigitChar(b % 10);
      assert Decimal(a / 10) == s[..n - 1] == Decimal(b / 10);
      DecimalInjective(a / 10, b / 10);
    }
  }
}
